=== FILE: README.md ===
# Meeting Scribe front end — Dafny model of its decision logic

Meeting Scribe's browser dashboard uploads audio recordings and shows
the transcriptions and summaries that a backend produces in the background.
Most of the front end is rendering. This project models the small decision
procedures and state machines under that rendering. Backend calls, timers and
browser storage become explicit inputs, and each component's logic is a pure
function:

- **Job status tracker** (`DrawerManager`). When a drawer opens, it probes for
  an existing transcription or summary. It starts a job on request and then
  polls for it. Backend replies are a JSON value datatype wrapped as
  `Resolved(success, data) | Threw`. Each step returns the next state and
  whether another poll is scheduled.
- **Auth slice** (`AuthSlice`). The four reducers, the invariant
  "authenticated implies an access token", and frame properties.
- **Upload widget** (`AudioUpload`). MIME allow-list and 50 MiB ceiling, the
  simulated progress counter, and what each upload outcome does to the
  selection.
- **Audio list** (`AudioList`). `formatDuration` with its parse-back round
  trip, `maxItems` truncation, the per-file status maps, the poll-continuation
  rule, and the action button's enabled state and label.
- **Drawer view** (`Drawer`). Texts, start-button visibility, content-panel
  priority, status label and colour, Escape handling, and the null render.
- **Dashboard page** (`Dashboard`). Auth guard, per-kind result caches, drawer
  open/close, pollers, logout cleanup, upload refresh counter, and the status
  prop it hands the drawer.
- **Transport** (`HttpService`). Token lookup across the local and session
  stores, the bearer header, 401 clearing, `formatError`, and the success
  wrapper.

The shared modules are `Js` (JavaScript truthiness, `||`, `in`, property
reads over a JSON datatype), `Domain` (job kinds, the audio-file record,
status strings, reply shapes) and `Decimal` (`toString` of naturals and
its inverse).

Behaviour of the code worth noting:

- A poll that throws is retried only when the status captured by the poll's
  closure is `processing`. Otherwise the job is marked failed. No retry
  counter is kept.
- A summary is never polled by the drawer tracker. Its create call either
  completes inline or fails.
- Nothing stops a late poll from overwriting a `completed` state.
- The drawer's poller reschedules itself (DrawerManager.tsx:225 and 239)
  without checking whether the drawer is open. A chain started before a close
  keeps writing into the drawer's state after it closes or is reopened.
- The list and dashboard pollers read the file list, drawer file and drawer
  type their closure captured when the poll chain began, not the current
  ones. `AudioList.PollStep` and `Dashboard.Poll` take those captured values
  as separate parameters.
- Neither the list's nor the dashboard's start handlers and pollers can run.
  The list's handlers have no caller, because its row buttons only open the
  drawer. Its status maps and in-flight markers therefore stay empty and every
  button shows its idle verb (`AudioList.UnstartedButtonsIdle`). The
  dashboard's handlers are wired only to the drawer's start button, which the
  page never shows (`Dashboard.NoStartButtonOnDashboard`). Its caches
  therefore stay empty and opening the drawer never finds data
  (`Dashboard.CachesStayEmpty`). Both are still modelled as written.

## Model

| member | source | states |
|---|---|---|
| DrawerManager.OnPropsChange | components/DrawerManager.tsx:28-37 | closing the drawer or having no file resets data and URL to null and status to not_started; an open drawer with a file starts loading |
| DrawerManager.BeginLoad | components/DrawerManager.tsx:39-42 | opening turns on loading, so the displayed status is "loading" |
| DrawerManager.Displayed | components/DrawerManager.tsx:280 | the drawer shows "loading" while the loading flag is set, else the tracked status |
| DrawerManager.TranscriptText | components/DrawerManager.tsx:52-106 | the transcription probe finds text only in a usable object reply: under the nested `data` object when a `data` key exists, else at the top level; the sentinel and thrown probes find nothing |
| DrawerManager.SummaryPayload | components/DrawerManager.tsx:107-131 | the summary probe returns the whole payload exactly when the reply is usable and is an array or an object without an `error` key |
| DrawerManager.FinishLoad | components/DrawerManager.tsx:44-139 | the probe's outcome is not_started with null data or completed with the payload taken from the reply; it is never failed or processing; an unusable URL reply keeps the previous URL |
| DrawerManager.Initial | components/DrawerManager.tsx:21-26 | a mounted drawer starts with null data and URL, status not_started and loading off, and displays not_started |
| DrawerManager.MountedTracker | components/DrawerManager.tsx:21-37 | a drawer mounted closed or without a file stays in its initial state; mounted open with a file it displays loading |
| DrawerManager.ReopenForgets | components/DrawerManager.tsx:28-139 | when no earlier poll chain is still running, closing and reopening the drawer gives a settled load that depends only on the URL and probe replies, whatever the drawer held before; the URL is null unless the URL reply is usable |
| DrawerManager.ProbeNeverFailsOrRuns | components/DrawerManager.tsx:52-139 | no probe outcome is failed, processing or pending, and loading is off afterwards |
| DrawerManager.ProbeEmptyShapes | components/DrawerManager.tsx:61-67 | the sentinel, an unsuccessful reply, a thrown probe, a summary with an `error` key and a primitive summary body all give not_started |
| DrawerManager.TranscriptShapes | components/DrawerManager.tsx:72-86 | a `text` field is accepted both flat and nested under `data`, giving completed with that text |
| DrawerManager.NestedDataShadowsText | components/DrawerManager.tsx:73-91 | when a `data` key exists, a top-level `text` is ignored and the outcome is not_started if the nested object has no text |
| DrawerManager.SummaryCompletes | components/DrawerManager.tsx:113-121 | a summary object without an `error` key completes with the whole payload |
| DrawerManager.BeginStart | components/DrawerManager.tsx:142-145 | a start sets the status to processing and changes nothing else |
| DrawerManager.Start | components/DrawerManager.tsx:142-177 | an unusable or thrown create gives failed with no poll; a usable summary create completes with the reply's payload; a usable transcription create completes with the inline `data.text` when it is truthy and otherwise polls with status processing and the old data; a usable create never gives failed |
| DrawerManager.StartShowsProcessing | components/DrawerManager.tsx:144 | once a start has begun, outside the open-time load, the drawer reads processing in blue with no start button |
| DrawerManager.StartInlineText | components/DrawerManager.tsx:151-154 | an inline `data.data.text` completes the transcription immediately, with no poll |
| DrawerManager.StartWithoutTextPolls | components/DrawerManager.tsx:155-158 | a successful create polls with status processing when there is no `data`, `data` is null, `data` has no `text`, or `text` is empty |
| DrawerManager.StartFailures | components/DrawerManager.tsx:159-176 | an unsuccessful or thrown create gives failed for either kind |
| DrawerManager.OnPollError | components/DrawerManager.tsx:235-243 | a thrown poll reschedules exactly when the closure's captured status is processing, and otherwise fails the job |
| DrawerManager.Poll | components/DrawerManager.tsx:179-244 | a probe that finds text completes the job without a further poll; a thrown probe, or no text and a thrown status call, takes the catch branch; a report other than completed-with-result leaves the data unchanged; no step touches the loading flag or the URL |
| DrawerManager.PollProbeShortCircuits | components/DrawerManager.tsx:202-211 | when the probe finds text, the step ignores the status endpoint entirely and completes with no poll |
| DrawerManager.PollContinuation | components/DrawerManager.tsx:219-225 | otherwise the tracked status becomes the reported one, and the next poll is scheduled iff it is processing or pending |
| DrawerManager.PollTerminal | components/DrawerManager.tsx:226-233 | failed is terminal with the data unchanged; completed with a transcript stores it and stops |
| DrawerManager.PollSilentStop | components/DrawerManager.tsx:219 | an unusable status reply changes nothing and schedules nothing |
| DrawerManager.RunPolls | components/DrawerManager.tsx:223-225 | a chain of polls runs at least one and at most as many polls as there are replies |
| DrawerManager.RunPollsConverges | components/DrawerManager.tsx:179-234 | a job reported processing/pending n times and then completed with a result ends completed with that result after n+1 polls |
| DrawerManager.RunPollsStopsAtFailure | components/DrawerManager.tsx:223-233 | after a failed report no later reply is consulted |
| DrawerManager.MissingClientMethods | components/DrawerManager.tsx:52-190 | with the thrown replies the missing client methods give, the open-time load ends not_started with no data, a summary start fails, and a poll takes its catch branch |
| DrawerManager.TrackerViews | components/DrawerManager.tsx:273-284 | while loading, the drawer reads "loading" in gray; after a start that hands over to polling, it shows no start button and shows the running panel unless data is present |
| AuthSlice.Initial | store/slices/authSlice.ts:18-23 | the store starts unauthenticated with null tokens and user |
| AuthSlice.Reduce | store/slices/authSlice.ts:31-60 | every action keeps "authenticated implies an access token"; logout yields the initial state; a user update leaves both tokens alone; token and user updates leave the flag alone |
| AuthSlice.LoginSuccessCopiesPayload | store/slices/authSlice.ts:35-40 | login sets the flag and copies access, refresh and user from the payload |
| AuthSlice.LogoutResets | store/slices/authSlice.ts:41-46 | logout returns every field to its initial value from any state and is idempotent |
| AuthSlice.UpdateTokensFrame | store/slices/authSlice.ts:47-55 | the access token is always replaced; refresh only for a non-empty value; the flag and user do not change |
| AuthSlice.UpdateUserFrame | store/slices/authSlice.ts:56-58 | a user update changes the user and nothing else |
| AuthSlice.ReducePreservesValid | store/slices/authSlice.ts:35-58 | every reducer preserves "authenticated implies an access token" |
| AuthSlice.ReplayPreservesValid | store/slices/authSlice.ts:31-60 | any action history from a valid state ends valid |
| AuthSlice.ReplayEndingInLogout | store/slices/authSlice.ts:41-46 | any history whose last action is logout ends in the initial state |
| AudioUpload.Initial | components/AudioUpload.tsx:19-22 | the widget starts with no file, progress 0 and no upload running |
| AudioUpload.Validate | components/AudioUpload.tsx:24-44 | a file is accepted iff its type is one of the five audio types and its size is at most 52428800; the type check comes first |
| AudioUpload.SelectFile | components/AudioUpload.tsx:24-46 | an accepted file becomes the selection; a rejected file leaves the state unchanged and reports the validation message |
| AudioUpload.SizeBoundary | components/AudioUpload.tsx:39-44 | exactly 52428800 bytes is accepted and one byte more is rejected with the size message |
| AudioUpload.TypeCheckedFirst | components/AudioUpload.tsx:33-44 | a file failing both checks reports only the type error |
| AudioUpload.VideoRejected | components/AudioUpload.tsx:26-36 | a `video/mp4` file is rejected with the type message |
| AudioUpload.ProgressTick | components/AudioUpload.tsx:85-91 | one interval firing adds 10 below 90 and holds at or above 90 |
| AudioUpload.ProgressFromZero | components/AudioUpload.tsx:80-92 | from 0, after n firings the counter reads min(10n, 90), so it never passes 90 |
| AudioUpload.ProgressHolds | components/AudioUpload.tsx:86-89 | at or above 90 the counter stays put under any number of firings |
| AudioUpload.BeginUpload | components/AudioUpload.tsx:76-80 | uploading without a selection is a no-op; otherwise the widget is uploading with progress 0 |
| AudioUpload.FinishUpload | components/AudioUpload.tsx:94-110 | success clears the selection and progress; an unsuccessful reply keeps the selection with progress 100; a throw keeps it with progress at most 90; the upload flag is off afterwards |
| AudioUpload.ClearFile | components/AudioUpload.tsx:113-116 | clearing drops the selection and resets progress |
| AudioUpload.ClearThenUploadIsNoOp | components/AudioUpload.tsx:77 | after clearing, and in the initial state, an upload click does nothing; after clearing a valid file can be selected again |
| AudioList.FormatDuration | components/AudioList.tsx:244-248 | the label is minutes, a colon and two digits of seconds; the seconds read back below 60 and minutes*60+seconds equals the input; the minutes have no leading zero |
| AudioList.DurationRoundTrip | components/AudioList.tsx:244-248 | parsing a formatted duration returns the seconds, so distinct durations get distinct labels |
| Decimal.DecimalRoundTrip | components/AudioList.tsx:247 | reading back a natural's decimal form gives the number |
| Decimal.PadTwoRoundTrip | components/AudioList.tsx:247 | reading back a two-digit padded number gives the number |
| AudioList.SliceTo | components/AudioList.tsx:56 | `slice(0, end)` is a prefix whose length is min(end, n), or n+end floored at 0 for a negative end |
| AudioList.Initial | components/AudioList.tsx:25-40 | the list starts with nothing in flight, empty status maps and no banners |
| AudioList.Truncate | components/AudioList.tsx:54-57 | a non-zero maxItems keeps a prefix of that length; an absent or zero maxItems keeps every file |
| AudioList.WithStatus | components/AudioList.tsx:113-116 | a status update writes only the given id's entry in one map; every other entry and the other map are unchanged |
| AudioList.FindFile | components/AudioList.tsx:153 | `find` returns a file with the id that no earlier file shares (the first match), or none iff no file has it |
| AudioList.DisplayName | components/AudioList.tsx:152-154 | banners use the name of the file `find` returns when that name is non-empty, and "audio file" otherwise |
| AudioList.DisplayNameOfListed | components/AudioList.tsx:152-154 | the first listed file with the id names the banner, even when later files share the id |
| AudioList.DisplayNameUnlisted | components/AudioList.tsx:152-154 | an id no listed file has gives "audio file" |
| AudioList.BeginJob | components/AudioList.tsx:110-116 | starting marks the file in flight and its entry processing; the files, banners and the other kind's map and marker are unchanged |
| AudioList.FinishJob | components/AudioList.tsx:118-135 | a successful create starts polling; an unsuccessful create marks the entry failed with the kind's start-failure message, a thrown one with the error's message or that fallback; the in-flight marker is cleared either way; the files, success banner and the other kind's map and marker are unchanged |
| AudioList.PollStep | components/AudioList.tsx:138-174 | the reported status is written to the file's entry; polling continues iff it is processing or pending; a thrown poll marks the entry failed; a completed report raises the success banner and a failed one the error banner, naming the file from the list the poll chain captured when it began; other outcomes leave both banners alone; the files and the other kind's map and marker are unchanged |
| AudioList.PollTerminal | components/AudioList.tsx:149-168 | completed raises the success banner, failed the error banner, and neither polls again |
| AudioList.ButtonDisabled | components/AudioList.tsx:462-465 | a row's button is disabled while its start is in flight or its entry reads processing, and enabled for an absent, pending, completed or failed entry with no start in flight |
| AudioList.ButtonLabel | components/AudioList.tsx:468-540 | the busy labels show iff the button is disabled; "Processing..." iff the entry reads processing; otherwise Completed, Failed and the idle verb follow the entry |
| AudioList.ButtonsIndependent | components/AudioList.tsx:462-540 | a row's button for one kind is unaffected by the other kind's statuses and in-flight marker |
| AudioList.ButtonIgnoresOtherRows | components/AudioList.tsx:462-540 | a row's button is unaffected by statuses written for other rows |
| AudioList.ButtonLabelMatchesState | components/AudioList.tsx:462-540 | the button is enabled iff no start is in flight and the entry does not read processing; "Starting..." shows iff a start is in flight and the entry does not read processing |
| AudioList.UnstartedButtonsIdle | components/AudioList.tsx:458-465 | in the list's initial state, which the unreachable handlers never change, every button is enabled and shows its idle verb |
| AudioList.StartedRowIsBusy | components/AudioList.tsx:462-492 | right after a start the row's button is disabled and reads "Processing..." |
| Drawer.TextsFor | components/Drawer.tsx:43-49 | the title follows the job kind |
| Drawer.TextsDistinguishKinds | components/Drawer.tsx:43-49 | the two kinds never share a title, button text or empty message |
| Drawer.ContentFor | components/Drawer.tsx:324-407 | data is shown iff it is truthy, whatever the status; then processing, then failed, then the kind's empty message |
| Drawer.StatusLabel | components/Drawer.tsx:273 | an empty status reads "Not started"; any other status is shown as is |
| Drawer.StatusColour | components/Drawer.tsx:263-271 | processing is blue, completed green, failed red, anything else gray |
| Drawer.OnKeyDown | components/Drawer.tsx:31-35 | `onClose` is called only for Escape while the drawer is open |
| Drawer.Render | components/Drawer.tsx:41-51 | nothing renders without a file; otherwise texts, start button, panel, label and colour are the functions above |
| Drawer.ShowsStartButton | components/Drawer.tsx:279 | the start button never shows beside truthy data or a blue or green status badge, and does show for failed, not_started or empty status without data |
| Drawer.ContentPriority | components/Drawer.tsx:279-407 | the start button shows iff the failed or empty panel shows and the status is not completed; never beside data |
| Drawer.TextsDependOnKindOnly | components/Drawer.tsx:43-49 | two rendered drawers of the same kind have the same texts |
| Dashboard.GuardDecision | app/dashboard/page.tsx:35-49 | the guard redirects iff the store is unauthenticated and neither browser store holds a non-empty token; this agrees with the transport's lookup |
| Dashboard.Lookup | app/dashboard/page.tsx:73-77 | a cache read gives the cached text, or null when it is absent or empty |
| Dashboard.OpenDrawer | app/dashboard/page.tsx:54-78 | opening shows the file and kind, with data from that kind's cache and the URL from a usable reply; the caches do not change |
| Dashboard.CloseDrawer | app/dashboard/page.tsx:80-85 | closing clears the open flag, file, data and URL and keeps the caches |
| Dashboard.Poll | app/dashboard/page.tsx:111-166 | polling continues iff processing or pending; a report other than completed-with-result changes nothing; a completed result is written at the polled id of the polled kind's cache and nowhere else; drawer data becomes the result exactly when the drawer file and type captured when the poll chain began are that file and kind, and is unchanged otherwise; the refresh counter never changes |
| Dashboard.PollCompletedIsCached | app/dashboard/page.tsx:120-133 | a completed result is cached, shown when the captured drawer is on that file and kind, and found again after close and reopen |
| Dashboard.CachesStayEmpty | app/dashboard/page.tsx:296-305 | with empty result caches, which the page never fills because its pollers cannot start, opening the drawer finds no data and opening, closing and refreshing keep the caches empty |
| Dashboard.StartJob | app/dashboard/page.tsx:87-109 | starting a job changes no page state; a poll chain for the id starts exactly when the create resolved successfully, and a throw is only logged |
| Dashboard.StartThenPoll | app/dashboard/page.tsx:87-133 | a failed start leaves the page as it was; a successful start whose first poll reports completed caches the result under the id and leaves the drawer unless the captured drawer is on that file and kind |
| Dashboard.RemoveTokens | app/dashboard/page.tsx:177-181 | the cleanup removes both token keys and keeps every other entry |
| Dashboard.Logout | app/dashboard/page.tsx:168-185 | logout always resets the store, removes exactly the two token keys from both stores (after the client's own token clear), keeps every other entry and the window flag, and redirects to /login |
| Dashboard.LogoutIgnoresApiOutcome | app/dashboard/page.tsx:168-185 | the logout outcome is the same whether the API call threw or not, and the guard then redirects |
| Dashboard.UploadSucceeded | app/dashboard/page.tsx:187-194 | an upload success raises the refresh counter by exactly 1 and changes nothing else |
| Dashboard.DrawerStatus | app/dashboard/page.tsx:293-299 | the drawer status is completed whenever a file is open, and "" otherwise |
| Dashboard.NoStartButtonOnDashboard | app/dashboard/page.tsx:287-306 | the page's drawer never shows the start button: it renders nothing without a file and reads completed with one |
| HttpService.GetAuthToken | utils/httpService.ts:89-97 | with no window there is no token; otherwise a non-empty local value wins, else the session value |
| HttpService.SetAuthToken | utils/httpService.ts:236-240 | setting writes only the local store |
| HttpService.ClearAuthToken | utils/httpService.ts:243-248 | clearing removes the token from both stores and keeps every other key |
| HttpService.ClearThenGetIsNone | utils/httpService.ts:243-248 | after clearing, the lookup finds no token |
| HttpService.SetThenGet | utils/httpService.ts:236-240 | a non-empty token just set is the one the lookup finds |
| HttpService.WithAuthHeader | utils/httpService.ts:47-50 | a `Bearer <token>` header is added iff the looked-up token is non-empty; other headers pass through |
| HttpService.FormatError | utils/httpService.ts:109-116 | the message is the response's message, else the error's, else "An error occurred"; status and data are copied from the response |
| HttpService.CallWrapsSuccess | utils/httpService.ts:118-151 | a call resolves iff the transport delivered; it is then wrapped as {data, status, success: true}, and otherwise rejects with the formatted error |
| HttpService.CallStorageEffect | utils/httpService.ts:64-107 | only a 401 touches storage, clearing the token from both stores; 403, 5xx and successes leave it as it was |

## Left out

- Rendering is not modelled: JSX, CSS classes, animations, SVG icons, the audio element and anchor downloads. Only the decisions behind them are modelled.
- axios, real HTTP, the 60-second timeout and the 5-second `setTimeout`/200 ms `setInterval` timing are not modelled. Replies are inputs; "poll again" is a boolean; interval firings are a count.
- `pollSummaryStatus` in the drawer tracker is left out. Nothing calls it.
- `formatFileSize` and `formatDate` are left out. They use floating-point logarithms and locale date formatting.
- The timed clearing of the list's success and error banners after 5 seconds is left out.
- The resource client (utils/apiService.ts) is not part of this model. Most of its methods delegate to the transport with URL literals. `logout` also clears the stored token after a successful post, and `Dashboard.LogoutCall` models that. Replies from the client are inputs to the model.
- The resource client defines no `getTranscription`, `getSummary` or `createSummary`. As written, each call to them throws, so the tracker's open-time probe, its summary start and the probe inside every poll always take the catch path. The model keeps these replies as inputs and covers the thrown case in `DrawerManager.MissingClientMethods`.
- Redux and routing glue are not part of this model: the store accessor, provider, re-exports, the redirect-only pages and the spinner.
- `router.push` is not modelled as an effect. The guard's decision and logout's redirect target are returned as values.
- Browser storage is two abstract string maps.
- In the upload widget, a thrown upload does not clear the progress interval, so the counter keeps ticking towards 90 after the widget stops uploading. The model records the counter at the moment of the throw.
- AudioList.FormatDuration: takes a natural number of seconds. A fractional or negative `durtion_seconds` is not modelled.
- JSON numbers are integers. NaN, and the falsiness it gives `maxItems`, are not modelled.
- An in-flight open-time probe that settles after the drawer closes is not modelled. It would write into the reset state.
- Overlapping poll chains are not modelled. Each step is modelled on its own.
- Poll chains that outlive the drawer are not modelled. The drawer's poller reschedules itself without checking whether the drawer is still open. A chain started before a close keeps writing data and status into the tracker after the drawer closes or reopens. `DrawerManager.ReopenForgets` holds only when no such chain is running.

=== FILE: audio_list.dfy ===
/** The audio-file list: duration formatting, `maxItems` truncation, the
    per-file job-status maps its handlers keep, and the action-button
    decisions made from them. */
module AudioList {
  import opened Js
  import opened Domain
  import Decimal

  /** `formatDuration`: minutes, a colon, and seconds padded to two digits. The
      text splits back into a minute count and a second count below 60 that
      add up to the input. */
  function FormatDuration(seconds: nat): (r: string)
    ensures |r| >= 4 && r[|r| - 3] == ':'
    ensures Decimal.AllDigits(r[..|r| - 3]) && Decimal.AllDigits(r[|r| - 2..])
    ensures Decimal.FromDecimal(r[|r| - 2..]) < 60
    ensures Decimal.FromDecimal(r[..|r| - 3]) * 60 + Decimal.FromDecimal(r[|r| - 2..]) == seconds
    ensures r[0] == '0' ==> |r| == 4 && seconds < 60
  {
    var mins := Decimal.ToDecimal(seconds / 60);
    var secs := Decimal.PadTwo(seconds % 60);
    var r := mins + ":" + secs;
    assert r[..|r| - 3] == mins;
    assert r[|r| - 2..] == secs;
    Decimal.DecimalRoundTrip(seconds / 60);
    Decimal.PadTwoRoundTrip(seconds % 60);
    r
  }

  /** Reads an `m:ss` duration back into seconds. */
  function ParseDuration(s: string): Option<nat> {
    if |s| >= 4 && s[|s| - 3] == ':' && Decimal.AllDigits(s[..|s| - 3]) && Decimal.AllDigits(s[|s| - 2..])
    then Some(Decimal.FromDecimal(s[..|s| - 3]) * 60 + Decimal.FromDecimal(s[|s| - 2..]))
    else None
  }

  /** Parsing a formatted duration gives back the seconds, so no two
      durations share a label. */
  lemma DurationRoundTrip(seconds: nat, other: nat)
    ensures ParseDuration(FormatDuration(seconds)) == Some(seconds)
    ensures FormatDuration(seconds) == FormatDuration(other) ==> seconds == other
  {
    assert ParseDuration(FormatDuration(other)) == Some(other);
  }

  /** JavaScript's `xs.slice(0, end)`: a negative end counts from the back. */
  function SliceTo<T>(xs: seq<T>, end: int): (r: seq<T>)
    ensures r <= xs
    ensures end >= 0 ==> |r| == Min(end, |xs|)
    ensures end < 0 ==> |r| == Max(|xs| + end, 0)
  {
    var e := if end < 0 then Max(|xs| + end, 0) else Min(end, |xs|);
    xs[..e]
  }

  /** The `maxItems` rule of `loadAudioFiles`: a non-zero limit slices, an
      absent or zero one keeps every file. */
  function Truncate(files: seq<AudioFile>, maxItems: Option<int>): (r: seq<AudioFile>)
    ensures r <= files
    ensures maxItems.None? || maxItems.value == 0 ==> r == files
    ensures maxItems.Some? && maxItems.value > 0 ==> |r| == Min(maxItems.value, |files|)
    ensures maxItems.Some? && maxItems.value < 0 ==> |r| == Max(|files| + maxItems.value, 0)
  {
    if maxItems.Some? && maxItems.value != 0 then SliceTo(files, maxItems.value) else files
  }

  type StatusMap = map<string, string>

  datatype ListState = ListState(
    files: seq<AudioFile>,
    transcribing: Option<string>,
    transcriptionStatus: StatusMap,
    summarizing: Option<string>,
    summaryStatus: StatusMap,
    error: Option<string>,
    successMessage: Option<string>)

  /** The list's state once `files` have loaded: nothing in flight, no
      statuses, no banners. */
  function Initial(files: seq<AudioFile>): (s: ListState)
    ensures s.files == files && s.error == None && s.successMessage == None
    ensures forall kind: Kind :: InFlightOf(s, kind) == None && StatusesOf(s, kind) == map[]
  {
    ListState(files, None, map[], None, map[], None, None)
  }

  /** The status map a job kind keeps its entries in. */
  function StatusesOf(s: ListState, kind: Kind): StatusMap {
    if kind == Transcription then s.transcriptionStatus else s.summaryStatus
  }

  /** The file whose create call a job kind is waiting on. */
  function InFlightOf(s: ListState, kind: Kind): Option<string> {
    if kind == Transcription then s.transcribing else s.summarizing
  }

  /** `setXStatus(prev => ({...prev, [id]: status}))`: one entry of one map. */
  function WithStatus(s: ListState, kind: Kind, id: string, status: string): (r: ListState)
    ensures StatusesOf(r, kind) == StatusesOf(s, kind)[id := status]
    ensures forall k :: k in StatusesOf(s, kind) && k != id ==> k in StatusesOf(r, kind) && StatusesOf(r, kind)[k] == StatusesOf(s, kind)[k]
    ensures StatusesOf(r, kind).Keys == StatusesOf(s, kind).Keys + {id}
    ensures forall other: Kind :: other != kind ==> StatusesOf(r, other) == StatusesOf(s, other)
    ensures r.files == s.files && r.error == s.error && r.successMessage == s.successMessage
    ensures r.transcribing == s.transcribing && r.summarizing == s.summarizing
  {
    if kind == Transcription then s.(transcriptionStatus := s.transcriptionStatus[id := status])
    else s.(summaryStatus := s.summaryStatus[id := status])
  }

  function WithInFlight(s: ListState, kind: Kind, id: Option<string>): (r: ListState)
    ensures InFlightOf(r, kind) == id
    ensures StatusesOf(r, Transcription) == StatusesOf(s, Transcription)
    ensures StatusesOf(r, Summary) == StatusesOf(s, Summary)
  {
    if kind == Transcription then s.(transcribing := id) else s.(summarizing := id)
  }

  /** The first listed file with the given id. */
  function FindFile(files: seq<AudioFile>, id: string): (r: Option<AudioFile>)
    ensures r.Some? ==> r.value in files && r.value.id == id
    ensures r.None? <==> forall i :: 0 <= i < |files| ==> files[i].id != id
    ensures |files| > 0 && files[0].id == id ==> r == Some(files[0])
    ensures r.Some? ==> exists i :: 0 <= i < |files| && files[i] == r.value && forall j :: 0 <= j < i ==> files[j].id != id
  {
    if |files| == 0 then None
    else if files[0].id == id then Some(files[0])
    else FindFile(files[1..], id)
  }

  /** `audioFiles.find(f => f.id === id)?.name || "audio file"`. */
  function DisplayName(files: seq<AudioFile>, id: string): (r: string)
    ensures r != ""
    ensures FindFile(files, id).Some? && FindFile(files, id).value.name != "" ==> r == FindFile(files, id).value.name
    ensures !(FindFile(files, id).Some? && FindFile(files, id).value.name != "") ==> r == "audio file"
  {
    var f := FindFile(files, id);
    if f.Some? && TruthyStr(f.value.name) then f.value.name else "audio file"
  }

  /** A banner names the first listed file with the id when that name is
      non-empty, even when later files share the id. */
  lemma DisplayNameOfListed(files: seq<AudioFile>, id: string, i: nat)
    requires i < |files| && files[i].id == id && files[i].name != ""
    requires forall j :: 0 <= j < i ==> files[j].id != id
    ensures DisplayName(files, id) == files[i].name
  {
    var f := FindFile(files, id).value;
    var w :| 0 <= w < |files| && files[w] == f && forall j :: 0 <= j < w ==> files[j].id != id;
    assert w == i;
  }

  /** No listed file with the id gives the fallback name. */
  lemma DisplayNameUnlisted(files: seq<AudioFile>, id: string)
    requires forall j :: 0 <= j < |files| ==> files[j].id != id
    ensures DisplayName(files, id) == "audio file"
  {
  }

  function StartFailedMessage(kind: Kind): string {
    if kind == Transcription then "Failed to start transcription" else "Failed to start summarization"
  }

  function CompletedMessage(kind: Kind, name: string): string {
    (if kind == Transcription then "Transcription" else "Summary") + " completed for " + name
  }

  function JobFailedMessage(kind: Kind, name: string): string {
    (if kind == Transcription then "Transcription" else "Summarization") + " failed for " + name
  }

  /** `handleTranscribeAudio`/`handleSummarizeAudio` up to the create call:
      the file is in flight and its entry reads processing. */
  function BeginJob(s: ListState, kind: Kind, id: string): (r: ListState)
    ensures InFlightOf(r, kind) == Some(id)
    ensures StatusesOf(r, kind) == StatusesOf(s, kind)[id := Processing]
    ensures forall other: Kind :: other != kind ==> StatusesOf(r, other) == StatusesOf(s, other)
    ensures forall other: Kind :: other != kind ==> InFlightOf(r, other) == InFlightOf(s, other)
    ensures r.files == s.files && r.error == s.error && r.successMessage == s.successMessage
  {
    WithInFlight(WithStatus(s, kind, id, Processing), kind, Some(id))
  }

  /** The rest of the start handler once the create call settles: a
      successful create starts polling; an unsuccessful or thrown one marks
      the file failed. The in-flight marker is cleared either way. */
  function FinishJob(s: ListState, kind: Kind, id: string, reply: CreateReply): (r: (ListState, bool))
    ensures r.1 <==> reply.Created? && reply.success
    ensures InFlightOf(r.0, kind) == None
    ensures r.1 ==> StatusesOf(r.0, kind) == StatusesOf(s, kind) && r.0.error == s.error
    ensures !r.1 ==> StatusesOf(r.0, kind) == StatusesOf(s, kind)[id := Failed] && r.0.error.Some?
    ensures reply.Created? && !reply.success ==> r.0.error == Some(StartFailedMessage(kind))
    ensures reply.CreateThrew? ==> r.0.error == Some(Or(reply.message, Some(StartFailedMessage(kind))).value)
    ensures forall other: Kind :: other != kind ==> StatusesOf(r.0, other) == StatusesOf(s, other)
    ensures forall other: Kind :: other != kind ==> InFlightOf(r.0, other) == InFlightOf(s, other)
    ensures r.0.files == s.files && r.0.successMessage == s.successMessage
  {
    match reply
    case Created(success) =>
      if success then (WithInFlight(s, kind, None), true)
      else
        var s' := WithStatus(s.(error := Some(StartFailedMessage(kind))), kind, id, Failed);
        (WithInFlight(s', kind, None), false)
    case CreateThrew(message) =>
      var s' := WithStatus(s.(error := Some(Or(message, Some(StartFailedMessage(kind))).value)), kind, id, Failed);
      (WithInFlight(s', kind, None), false)
  }

  /** One `pollTranscriptionStatus`/`pollSummaryStatus` step: the reported
      status is written to the file's entry, and the next poll is scheduled
      exactly when that status is processing or pending. A thrown poll marks
      the file failed. Banners name the file from `seenFiles`, the list the
      poll's closure captured when the chain began. */
  function PollStep(s: ListState, kind: Kind, id: string, reply: StatusReply, seenFiles: seq<AudioFile>): (r: (ListState, bool))
    ensures r.1 <==> Reports(reply) && KeepsPolling(reply.body.value.status)
    ensures Reports(reply) ==> StatusesOf(r.0, kind) == StatusesOf(s, kind)[id := reply.body.value.status]
    ensures reply.StatusThrew? ==> StatusesOf(r.0, kind) == StatusesOf(s, kind)[id := Failed]
    ensures reply.StatusResolved? && !Reports(reply) ==> r.0 == s
    ensures forall other: Kind :: other != kind ==> StatusesOf(r.0, other) == StatusesOf(s, other)
    ensures r.0.files == s.files && InFlightOf(r.0, kind) == InFlightOf(s, kind)
    ensures forall other: Kind :: other != kind ==> InFlightOf(r.0, other) == InFlightOf(s, other)
    ensures Reports(reply) && reply.body.value.status == Completed ==>
      r.0.successMessage == Some(CompletedMessage(kind, DisplayName(seenFiles, id))) && r.0.error == s.error
    ensures Reports(reply) && reply.body.value.status == Failed ==>
      r.0.error == Some(JobFailedMessage(kind, DisplayName(seenFiles, id))) && r.0.successMessage == s.successMessage
    ensures !(Reports(reply) && reply.body.value.status in {Completed, Failed}) ==>
      r.0.error == s.error && r.0.successMessage == s.successMessage
  {
    match reply
    case StatusThrew => (WithStatus(s, kind, id, Failed), false)
    case StatusResolved(success, body) =>
      if !(success && body.Some?) then (s, false)
      else
        var status := body.value.status;
        var s' := WithStatus(s, kind, id, status);
        if KeepsPolling(status) then (s', true)
        else if status == Completed then (s'.(successMessage := Some(CompletedMessage(kind, DisplayName(seenFiles, id)))), false)
        else if status == Failed then (s'.(error := Some(JobFailedMessage(kind, DisplayName(seenFiles, id)))), false)
        else (s', false)
  }

  /** Terminal reports stop polling; completion raises the success banner and
      failure the error banner. */
  lemma PollTerminal(s: ListState, kind: Kind, id: string, seenFiles: seq<AudioFile>, name: string)
    requires DisplayName(seenFiles, id) == name
    ensures var r := PollStep(s, kind, id, StatusResolved(true, Some(StatusBody(Completed, None))), seenFiles);
      !r.1 && r.0.successMessage == Some(CompletedMessage(kind, name))
    ensures var r := PollStep(s, kind, id, StatusResolved(true, Some(StatusBody(Failed, None))), seenFiles);
      !r.1 && r.0.error == Some(JobFailedMessage(kind, name))
  {
  }

  /** `transcriptionStatus[id]`, `undefined` when absent. */
  function StatusOf(m: StatusMap, id: string): Option<string> {
    if id in m then Some(m[id]) else None
  }

  /** Whether a row's action button for a job kind is disabled. */
  function ButtonDisabled(s: ListState, kind: Kind, id: string): (disabled: bool)
    ensures InFlightOf(s, kind) == Some(id) ==> disabled
    ensures StatusOf(StatusesOf(s, kind), id) == Some(Processing) ==> disabled
    ensures InFlightOf(s, kind) != Some(id)
      && StatusOf(StatusesOf(s, kind), id) in {None, Some(Pending), Some(Completed), Some(Failed)}
      ==> !disabled
  {
    InFlightOf(s, kind) == Some(id) || StatusOf(StatusesOf(s, kind), id) == Some(Processing)
  }

  const ProcessingLabel := "Processing..."
  const StartingLabel := "Starting..."
  const CompletedLabel := "Completed"
  const FailedLabel := "Failed"

  /** The action verb shown when no job state applies. */
  function IdleLabel(kind: Kind): string {
    if kind == Transcription then "Transcribe" else "Summarize"
  }

  /** The label of a row's action button, chosen in priority order. */
  function ButtonLabel(s: ListState, kind: Kind, id: string): (caption: string)
    ensures ButtonDisabled(s, kind, id) <==> caption in {ProcessingLabel, StartingLabel}
    ensures caption == ProcessingLabel <==> StatusOf(StatusesOf(s, kind), id) == Some(Processing)
    ensures !ButtonDisabled(s, kind, id) ==>
      (caption == CompletedLabel <==> StatusOf(StatusesOf(s, kind), id) == Some(Completed))
      && (caption == FailedLabel <==> StatusOf(StatusesOf(s, kind), id) == Some(Failed))
      && (caption == IdleLabel(kind) <==> StatusOf(StatusesOf(s, kind), id) !in {Some(Completed), Some(Failed)})
  {
    var st := StatusOf(StatusesOf(s, kind), id);
    if ButtonDisabled(s, kind, id) then (if st == Some(Processing) then ProcessingLabel else StartingLabel)
    else if st == Some(Completed) then CompletedLabel
    else if st == Some(Failed) then FailedLabel
    else IdleLabel(kind)
  }

  /** "Starting..." shows exactly when the row's start is in flight and its
      entry does not read processing. Together with the label's own contract
      this pins the button's enabled direction: it is enabled exactly when no
      start is in flight and the entry does not read processing, so no other
      status disables it. */
  lemma ButtonLabelMatchesState(s: ListState, kind: Kind, id: string)
    ensures !ButtonDisabled(s, kind, id) <==>
      InFlightOf(s, kind) != Some(id) && StatusOf(StatusesOf(s, kind), id) != Some(Processing)
    ensures ButtonDisabled(s, kind, id) <==> ButtonLabel(s, kind, id) in {ProcessingLabel, StartingLabel}
    ensures ButtonLabel(s, kind, id) == ProcessingLabel <==> StatusOf(StatusesOf(s, kind), id) == Some(Processing)
    ensures ButtonLabel(s, kind, id) == StartingLabel <==>
      InFlightOf(s, kind) == Some(id) && StatusOf(StatusesOf(s, kind), id) != Some(Processing)
    ensures !ButtonDisabled(s, kind, id) ==>
      (ButtonLabel(s, kind, id) == CompletedLabel <==> StatusOf(StatusesOf(s, kind), id) == Some(Completed))
    ensures !ButtonDisabled(s, kind, id) ==>
      (ButtonLabel(s, kind, id) == FailedLabel <==> StatusOf(StatusesOf(s, kind), id) == Some(Failed))
  {
  }

  /** A row's button for one kind ignores the other kind: statuses written
      for the other kind and its in-flight marker leave it alone. */
  lemma ButtonsIndependent(s: ListState, kind: Kind, other: Kind, id: string, status: string, flight: Option<string>)
    requires other != kind
    ensures ButtonLabel(WithStatus(s, other, id, status), kind, id) == ButtonLabel(s, kind, id)
    ensures ButtonDisabled(WithStatus(s, other, id, status), kind, id) == ButtonDisabled(s, kind, id)
    ensures ButtonLabel(WithInFlight(s, other, flight), kind, id) == ButtonLabel(s, kind, id)
  {
    assert InFlightOf(WithStatus(s, other, id, status), kind) == InFlightOf(s, kind);
    assert InFlightOf(WithInFlight(s, other, flight), kind) == InFlightOf(s, kind);
  }

  /** A row's button ignores statuses written for other rows. */
  lemma ButtonIgnoresOtherRows(s: ListState, kind: Kind, id: string, otherId: string, status: string)
    requires otherId != id
    ensures ButtonLabel(WithStatus(s, kind, otherId, status), kind, id) == ButtonLabel(s, kind, id)
    ensures ButtonDisabled(WithStatus(s, kind, otherId, status), kind, id) == ButtonDisabled(s, kind, id)
  {
  }

  /** The list's start handlers and pollers have no caller: the row buttons
      only open the drawer. The state therefore stays `Initial`, where every
      button is enabled and shows its idle verb. */
  lemma UnstartedButtonsIdle(files: seq<AudioFile>, kind: Kind, id: string)
    ensures !ButtonDisabled(Initial(files), kind, id)
    ensures ButtonLabel(Initial(files), kind, id) == IdleLabel(kind)
  {
  }

  /** Right after a start the row's button is disabled and reads "Processing...". */
  lemma StartedRowIsBusy(s: ListState, kind: Kind, id: string)
    ensures ButtonDisabled(BeginJob(s, kind, id), kind, id)
    ensures ButtonLabel(BeginJob(s, kind, id), kind, id) == ProcessingLabel
  {
  }
}

=== FILE: audio_upload.dfy ===
/** The upload widget: client-side validation of a chosen file, the
    simulated progress counter, and what an upload's outcome does to the
    selection. Timers are replaced by an explicit tick count. */
module AudioUpload {
  import opened Js

  /** The part of a browser `File` the widget reads. */
  datatype FileInfo = FileInfo(name: string, mimeType: string, size: nat)

  const AllowedTypes: seq<string> := ["audio/mp3", "audio/wav", "audio/ogg", "audio/m4a", "audio/mpeg"]
  /** 50 MiB. */
  const MaxSize: nat := 50 * 1024 * 1024
  const InvalidTypeMessage := "Please select a valid audio file (MP3, WAV, OGG, M4A)"
  const TooLargeMessage := "File size must be less than 50MB"
  const UploadFailedMessage := "Upload failed. Please try again."

  datatype UploadState = UploadState(selected: Option<FileInfo>, progress: int, isUploading: bool)

  /** The widget as first rendered: no file, no progress, not uploading. */
  function Initial(): (r: UploadState)
    ensures r.selected.None? && r.progress == 0 && !r.isUploading
  {
    UploadState(None, 0, false)
  }

  /** The error `handleFileSelect` reports for a file, or `None` when the file is accepted. */
  function Validate(f: FileInfo): (err: Option<string>)
    ensures err == None <==> f.mimeType in AllowedTypes && f.size <= MaxSize
    ensures f.mimeType !in AllowedTypes ==> err == Some(InvalidTypeMessage)
    ensures f.mimeType in AllowedTypes && f.size > MaxSize ==> err == Some(TooLargeMessage)
  {
    if f.mimeType !in AllowedTypes then Some(InvalidTypeMessage)
    else if f.size > MaxSize then Some(TooLargeMessage)
    else None
  }

  /** `handleFileSelect`: the new state and the message passed to the error callback. */
  function SelectFile(s: UploadState, f: FileInfo): (r: (UploadState, Option<string>))
    ensures r.1 == None ==> r.0 == s.(selected := Some(f))
    ensures r.1 != None ==> r.0 == s
    ensures r.1 == Validate(f)
  {
    match Validate(f)
    case None => (s.(selected := Some(f)), None)
    case Some(e) => (s, Some(e))
  }

  /** The boundary cases of the size ceiling. */
  lemma SizeBoundary(name: string, mimeType: string)
    requires mimeType in AllowedTypes
    ensures Validate(FileInfo(name, mimeType, 52428800)) == None
    ensures Validate(FileInfo(name, mimeType, 52428801)) == Some(TooLargeMessage)
  {
  }

  /** A file that fails both checks reports only the type error. */
  lemma TypeCheckedFirst(f: FileInfo)
    requires f.mimeType !in AllowedTypes && f.size > MaxSize
    ensures Validate(f) == Some(InvalidTypeMessage)
  {
  }

  /** A video file is turned away with the type message. */
  lemma VideoRejected(name: string, size: nat)
    ensures Validate(FileInfo(name, "video/mp4", size)) == Some(InvalidTypeMessage)
  {
    assert "video/mp4" != AllowedTypes[0];
  }

  /** One firing of the progress interval. */
  function ProgressTick(p: int): (r: int)
    ensures p >= 90 ==> r == p
    ensures p < 90 ==> r == p + 10
  {
    if p >= 90 then p else p + 10
  }

  /** The counter after `n` firings. */
  function ProgressAfter(p: int, n: nat): int
    decreases n
  {
    if n == 0 then p else ProgressAfter(ProgressTick(p), n - 1)
  }

  /** Starting from 0 the counter climbs by 10 and stops at 90. */
  lemma {:induction false} ProgressFromZero(n: nat)
    ensures ProgressAfter(0, n) == Min(10 * n, 90)
  {
    ProgressFromAligned(0, n);
  }

  lemma {:induction false} ProgressFromAligned(k: nat, n: nat)
    requires k <= 9
    ensures ProgressAfter(10 * k, n) == Min(10 * (k + n), 90)
    decreases n
  {
    if n > 0 {
      if k == 9 {
        ProgressHolds(90, n);
      } else {
        assert ProgressTick(10 * k) == 10 * (k + 1);
        ProgressFromAligned(k + 1, n - 1);
      }
    }
  }

  /** At or above 90 the counter holds still. */
  lemma {:induction false} ProgressHolds(p: int, n: nat)
    requires p >= 90
    ensures ProgressAfter(p, n) == p
    decreases n
  {
    if n > 0 {
      ProgressHolds(ProgressTick(p), n - 1);
    }
  }

  /** `uploadFile` up to the request: nothing happens without a selection;
      otherwise the widget is uploading with the counter at 0. */
  function BeginUpload(s: UploadState): (r: UploadState)
    ensures s.selected.None? ==> r == s
    ensures s.selected.Some? ==> r.isUploading && r.progress == 0 && r.selected == s.selected
  {
    if s.selected.None? then s else s.(isUploading := true, progress := 0)
  }

  /** What the upload request produced. `data` is whether the reply had a body. */
  datatype UploadReply = Replied(success: bool, data: bool) | Threw(message: Option<string>)

  /** The callbacks the widget invokes. */
  datatype Callback = OnSuccess | OnError(message: string)

  /** `uploadFile` after the request settles, `ticks` interval firings after it began. */
  function FinishUpload(s: UploadState, ticks: nat, reply: UploadReply): (r: (UploadState, Callback))
    requires s.selected.Some? && s.isUploading && s.progress == 0
    ensures !r.0.isUploading
    ensures r.1 == OnSuccess <==> reply.Replied? && reply.success && reply.data
    ensures r.1 == OnSuccess ==> r.0.selected == None && r.0.progress == 0
    ensures r.1 != OnSuccess ==> r.0.selected == s.selected
    ensures reply.Replied? && !(reply.success && reply.data) ==> r.0.progress == 100 && r.1 == OnError(UploadFailedMessage)
    ensures reply.Threw? ==> 0 <= r.0.progress <= 90
    ensures r.1.OnError? ==> r.1.message != ""
  {
    match reply
    case Replied(success, data) =>
      // The interval is cleared and the counter jumps to 100 before the branch.
      if success && data then (UploadState(None, 0, false), OnSuccess)
      else (s.(progress := 100, isUploading := false), OnError(UploadFailedMessage))
    case Threw(message) =>
      ProgressFromZero(ticks);
      (s.(progress := ProgressAfter(0, ticks), isUploading := false),
       OnError(if TruthyOpt(message) then message.value else UploadFailedMessage))
  }

  /** `clearFile`. */
  function ClearFile(s: UploadState): (r: UploadState)
    ensures r.selected == None && r.progress == 0 && r.isUploading == s.isUploading
  {
    s.(selected := None, progress := 0)
  }

  /** After `clearFile` an upload click does nothing, and a new valid file can
      be selected again. */
  lemma ClearThenUploadIsNoOp(s: UploadState, f: FileInfo)
    requires Validate(f) == None
    ensures BeginUpload(ClearFile(s)) == ClearFile(s)
    ensures BeginUpload(Initial()) == Initial()
    ensures SelectFile(ClearFile(s), f).0.selected == Some(f)
  {
  }
}

=== FILE: auth_slice.dfy ===
/** The authentication slice of the client store: four reducers over
    `{isAuthenticated, accessToken, refreshToken, user}`. */
module AuthSlice {
  import opened Js

  datatype User = User(id: int, username: string, email: string, firstName: string, lastName: string)

  datatype AuthState = AuthState(
    isAuthenticated: bool,
    accessToken: Option<string>,
    refreshToken: Option<string>,
    user: Option<User>)

  /** What a successful login hands to the store. */
  datatype LoginPayload = LoginPayload(access: string, refresh: string, user: User)

  /** The four actions the slice exports. `refresh` is optional in `UpdateTokens`. */
  datatype Action =
    | LoginSuccess(login: LoginPayload)
    | Logout
    | UpdateTokens(access: string, refresh: Option<string>)
    | UpdateUser(newUser: User)

  /** The state a fresh store starts in. */
  function Initial(): (s: AuthState)
    ensures !s.isAuthenticated
    ensures s.accessToken == None && s.refreshToken == None && s.user == None
  {
    AuthState(false, None, None, None)
  }

  /** The slice invariant: an authenticated state always holds an access token. */
  predicate Valid(s: AuthState) {
    s.isAuthenticated ==> s.accessToken.Some?
  }

  /** The slice's reducer. Each action keeps the invariant; logout lands in the
      initial state; only a login or a token update touches the tokens. */
  function Reduce(s: AuthState, a: Action): (r: AuthState)
    ensures Valid(s) ==> Valid(r)
    ensures a.Logout? ==> r == Initial()
    ensures a.UpdateUser? ==> r.accessToken == s.accessToken && r.refreshToken == s.refreshToken
    ensures a.UpdateTokens? || a.UpdateUser? ==> r.isAuthenticated == s.isAuthenticated
  {
    match a
    case LoginSuccess(p) =>
      s.(isAuthenticated := true, accessToken := Some(p.access),
         refreshToken := Some(p.refresh), user := Some(p.user))
    case Logout =>
      s.(isAuthenticated := false, accessToken := None, refreshToken := None, user := None)
    case UpdateTokens(access, refresh) =>
      var s' := s.(accessToken := Some(access));
      if TruthyOpt(refresh) then s'.(refreshToken := refresh) else s'
    case UpdateUser(u) =>
      s.(user := Some(u))
  }

  /** A login authenticates and takes all three values from the payload. */
  lemma LoginSuccessCopiesPayload(s: AuthState, p: LoginPayload)
    ensures var r := Reduce(s, LoginSuccess(p));
      r.isAuthenticated && r.accessToken == Some(p.access)
      && r.refreshToken == Some(p.refresh) && r.user == Some(p.user)
  {
  }

  /** Logout returns every field to its initial value, from any state, and
      applying it twice is the same as applying it once. */
  lemma LogoutResets(s: AuthState)
    ensures Reduce(s, Logout) == Initial()
    ensures Reduce(Reduce(s, Logout), Logout) == Reduce(s, Logout)
  {
  }

  /** A token update always replaces the access token, replaces the refresh
      token only for a non-empty `refresh`, and leaves the flag and user alone. */
  lemma UpdateTokensFrame(s: AuthState, access: string, refresh: Option<string>)
    ensures var r := Reduce(s, UpdateTokens(access, refresh));
      && r.accessToken == Some(access)
      && (TruthyOpt(refresh) ==> r.refreshToken == refresh)
      && (!TruthyOpt(refresh) ==> r.refreshToken == s.refreshToken)
      && r.isAuthenticated == s.isAuthenticated
      && r.user == s.user
  {
  }

  /** A user update changes the user and nothing else. */
  lemma UpdateUserFrame(s: AuthState, u: User)
    ensures var r := Reduce(s, UpdateUser(u));
      r == s.(user := Some(u)) && r.user == Some(u)
      && r.isAuthenticated == s.isAuthenticated
      && r.accessToken == s.accessToken && r.refreshToken == s.refreshToken
  {
  }

  /** Every reducer keeps the invariant. */
  lemma ReducePreservesValid(s: AuthState, a: Action)
    requires Valid(s)
    ensures Valid(Reduce(s, a))
  {
  }

  /** Replaying a history of actions from the initial state. */
  function Replay(s: AuthState, actions: seq<Action>): AuthState
    decreases |actions|
  {
    if |actions| == 0 then s else Replay(Reduce(s, actions[0]), actions[1..])
  }

  /** Any history that starts from a valid state ends in a valid state; in
      particular every reachable store state satisfies the invariant. */
  lemma {:induction false} ReplayPreservesValid(s: AuthState, actions: seq<Action>)
    requires Valid(s)
    ensures Valid(Replay(s, actions))
    decreases |actions|
  {
    if |actions| > 0 {
      ReducePreservesValid(s, actions[0]);
      ReplayPreservesValid(Reduce(s, actions[0]), actions[1..]);
    }
  }

  /** A history that ends in a logout always leaves the store in its initial state. */
  lemma {:induction false} ReplayEndingInLogout(s: AuthState, actions: seq<Action>)
    requires |actions| > 0 && actions[|actions| - 1] == Logout
    ensures Replay(s, actions) == Initial()
    decreases |actions|
  {
    if |actions| == 1 {
      assert Replay(Reduce(s, Logout), actions[1..]) == Reduce(s, Logout);
    } else {
      ReplayEndingInLogout(Reduce(s, actions[0]), actions[1..]);
    }
  }
}

=== FILE: dashboard.dfy ===
/** The dashboard page: the auth guard, the drawer it opens and closes, the
    per-kind result caches its pollers fill, logout cleanup and the upload
    refresh counter. */
module Dashboard {
  import opened Js
  import opened Domain
  import AuthSlice
  import HttpService
  import Drawer

  const RefreshTokenKey := "refreshToken"
  const LoginPath := "/login"

  type Cache = map<string, string>

  datatype Dash = Dash(
    refreshCounter: nat,
    isOpen: bool,
    file: Option<AudioFile>,
    kind: Kind,
    data: Option<string>,
    audioUrl: Option<Json>,
    transcripts: Cache,
    summaries: Cache)

  function Initial(): Dash {
    Dash(0, false, None, Transcription, None, None, map[], map[])
  }

  /** The cache that holds results of a job kind. */
  function CacheOf(d: Dash, kind: Kind): Cache {
    if kind == Transcription then d.transcripts else d.summaries
  }

  /** `checkAuth`: whether the page sends the user to the login page. */
  predicate GuardRedirects(auth: AuthSlice.AuthState, b: HttpService.Browser) {
    !auth.isAuthenticated && !TruthyOpt(HttpService.StoredToken(b))
  }

  /** The guard redirects exactly when the store is unauthenticated and
      neither browser store holds a non-empty token; in a browser this is the
      same token the transport would attach. */
  lemma GuardDecision(auth: AuthSlice.AuthState, b: HttpService.Browser)
    ensures GuardRedirects(auth, b) <==>
      !auth.isAuthenticated
      && !TruthyOpt(HttpService.GetItem(b.local, HttpService.AuthTokenKey))
      && !TruthyOpt(HttpService.GetItem(b.session, HttpService.AuthTokenKey))
    ensures b.hasWindow ==>
      (GuardRedirects(auth, b) <==> !auth.isAuthenticated && !TruthyOpt(HttpService.GetAuthToken(b)))
  {
  }

  /** `cache[id] || null`. */
  function Lookup(c: Cache, id: string): (r: Option<string>)
    ensures r.Some? <==> id in c && c[id] != ""
    ensures r.Some? ==> r.value == c[id]
  {
    if id in c && TruthyStr(c[id]) then Some(c[id]) else None
  }

  /** `openDrawer`: shows the file, takes the URL from a usable reply and the
      data from the kind's cache. */
  function OpenDrawer(d: Dash, f: AudioFile, kind: Kind, url: Reply): (r: Dash)
    ensures r.isOpen && r.file == Some(f) && r.kind == kind
    ensures r.data == Lookup(CacheOf(d, kind), f.id)
    ensures Usable(url) ==> r.audioUrl == Get(url.data, "audio_file_url")
    ensures !Usable(url) ==> r.audioUrl == d.audioUrl
    ensures r.transcripts == d.transcripts && r.summaries == d.summaries
    ensures r.refreshCounter == d.refreshCounter
  {
    var audioUrl := if Usable(url) then Get(url.data, "audio_file_url") else d.audioUrl;
    d.(isOpen := true, file := Some(f), kind := kind, audioUrl := audioUrl,
       data := Lookup(CacheOf(d, kind), f.id))
  }

  /** `closeDrawer`: the drawer and what it showed are cleared; the caches and
      the kind stay. */
  function CloseDrawer(d: Dash): (r: Dash)
    ensures !r.isOpen && r.file == None && r.data == None && r.audioUrl == None
    ensures r.kind == d.kind && r.transcripts == d.transcripts && r.summaries == d.summaries
    ensures r.refreshCounter == d.refreshCounter
  {
    d.(isOpen := false, file := None, data := None, audioUrl := None)
  }

  /** Whether a drawer on `file` and `kind` shows this file's result of this kind. */
  predicate Shows(file: Option<AudioFile>, kind: Kind, id: string, polled: Kind) {
    file.Some? && file.value.id == id && kind == polled
  }

  /** One `pollTranscriptionStatus`/`pollSummaryStatus` run. Polling goes on
      for processing or pending; a completed report with a result is cached
      under the polled id, and shown if the drawer file and type seen by the
      poll's closure (`seenFile`, `seenKind`, fixed when the chain began) are
      that file and kind. */
  function Poll(d: Dash, kind: Kind, id: string, reply: StatusReply, seenFile: Option<AudioFile>, seenKind: Kind): (r: (Dash, bool))
    ensures r.1 <==> Reports(reply) && KeepsPolling(reply.body.value.status)
    ensures r.0.isOpen == d.isOpen && r.0.file == d.file && r.0.kind == d.kind && r.0.audioUrl == d.audioUrl
    ensures forall other: Kind :: other != kind ==> CacheOf(r.0, other) == CacheOf(d, other)
    ensures forall k :: k != id ==>
      (k in CacheOf(r.0, kind) <==> k in CacheOf(d, kind))
      && (k in CacheOf(d, kind) ==> CacheOf(r.0, kind)[k] == CacheOf(d, kind)[k])
    ensures !Shows(seenFile, seenKind, id, kind) ==> r.0.data == d.data
    ensures Shows(seenFile, seenKind, id, kind) && Reports(reply)
      && reply.body.value.status == Completed && TruthyOpt(reply.body.value.result)
      ==> r.0.data == reply.body.value.result
    ensures r.0.refreshCounter == d.refreshCounter
    ensures !(Reports(reply) && reply.body.value.status == Completed && TruthyOpt(reply.body.value.result))
      ==> r.0 == d
    ensures Reports(reply) && reply.body.value.status == Completed && TruthyOpt(reply.body.value.result)
      ==> CacheOf(r.0, kind) == CacheOf(d, kind)[id := reply.body.value.result.value]
  {
    if !Reports(reply) then (d, false)
    else
      var body := reply.body.value;
      if KeepsPolling(body.status) then (d, true)
      else if body.status == Completed && TruthyOpt(body.result) then
        var text := body.result.value;
        var d' := if kind == Transcription then d.(transcripts := d.transcripts[id := text])
                  else d.(summaries := d.summaries[id := text]);
        (if Shows(seenFile, seenKind, id, kind) then d'.(data := Some(text)) else d', false)
      else (d, false)
  }

  /** A completed result is cached, shown when the drawer seen by the poll is
      on that file and kind, and found again when the drawer is closed and
      reopened on it. */
  lemma PollCompletedIsCached(d: Dash, kind: Kind, id: string, text: string, f: AudioFile, url: Reply)
    requires text != "" && f.id == id
    ensures var r := Poll(d, kind, id, StatusResolved(true, Some(StatusBody(Completed, Some(text)))), d.file, d.kind);
      !r.1
      && id in CacheOf(r.0, kind) && CacheOf(r.0, kind)[id] == text
      && (Shows(d.file, d.kind, id, kind) ==> r.0.data == Some(text))
      && OpenDrawer(CloseDrawer(r.0), f, kind, url).data == Some(text)
  {
  }

  /** The page's start handlers are wired only to the drawer's start button,
      which the page never shows, so its pollers never run and the result
      caches stay empty: opening the drawer then never finds data, and
      opening, closing and upload refreshes keep the caches empty. */
  lemma CachesStayEmpty(d: Dash, f: AudioFile, kind: Kind, url: Reply)
    requires d.transcripts == map[] && d.summaries == map[]
    ensures Initial().transcripts == map[] && Initial().summaries == map[]
    ensures OpenDrawer(d, f, kind, url).data == None
    ensures var o := OpenDrawer(d, f, kind, url); o.transcripts == map[] && o.summaries == map[]
    ensures CloseDrawer(d).transcripts == map[] && CloseDrawer(d).summaries == map[]
    ensures UploadSucceeded(d).transcripts == map[] && UploadSucceeded(d).summaries == map[]
  {
  }

  /** `handleTranscribeAudio` / `handleSummarizeAudio`: no page state changes
      (a failure is only logged); a successful create starts a poll chain for
      the id, returned as the second component. */
  function StartJob(d: Dash, id: string, reply: CreateReply): (r: (Dash, Option<string>))
    ensures r.0 == d
    ensures r.1.Some? ==> r.1.value == id
    ensures reply.Created? && reply.success ==> r.1 == Some(id)
    ensures reply.CreateThrew? || !reply.success ==> r.1 == None
  {
    (d, if reply.Created? && reply.success then Some(id) else None)
  }

  /** A start is only ever followed by polls: a failed start leaves the page as
      it was and polls nothing, and a successful one whose first poll reports
      the job completed caches the result under that id without touching the
      drawer the user has moved on to. */
  lemma StartThenPoll(d: Dash, kind: Kind, id: string, reply: CreateReply, text: string, seenFile: Option<AudioFile>, seenKind: Kind)
    requires text != ""
    ensures !(reply.Created? && reply.success) ==> StartJob(d, id, reply) == (d, None)
    ensures reply.Created? && reply.success ==>
      var (d1, chain) := StartJob(d, id, reply);
      chain == Some(id)
      && var p := Poll(d1, kind, chain.value, StatusResolved(true, Some(StatusBody(Completed, Some(text)))), seenFile, seenKind);
      !p.1 && id in CacheOf(p.0, kind) && CacheOf(p.0, kind)[id] == text
      && p.0.isOpen == d.isOpen && p.0.file == d.file
      && (!Shows(seenFile, seenKind, id, kind) ==> p.0.data == d.data)
  {
  }

  /** The browser after `apiService.logout`: the token is cleared only when the
      call went through. */
  function LogoutCall(b: HttpService.Browser, apiSucceeded: bool): HttpService.Browser {
    if apiSucceeded then HttpService.ClearAuthToken(b) else b
  }

  /** The storage cleanup in `handleLogout`'s `finally`. */
  function RemoveTokens(s: HttpService.Store): (r: HttpService.Store)
    ensures HttpService.AuthTokenKey !in r && RefreshTokenKey !in r
    ensures forall k :: k in s && k != HttpService.AuthTokenKey && k != RefreshTokenKey ==> k in r && r[k] == s[k]
    ensures r.Keys <= s.Keys
  {
    s - {HttpService.AuthTokenKey, RefreshTokenKey}
  }

  datatype LogoutResult = LogoutResult(auth: AuthSlice.AuthState, browser: HttpService.Browser, redirect: string)

  /** `handleLogout`: whatever the API call did, the store is logged out, both
      keys leave both stores, and the page goes to the login page. */
  function Logout(auth: AuthSlice.AuthState, b: HttpService.Browser, apiSucceeded: bool): (r: LogoutResult)
    ensures r.auth == AuthSlice.Initial()
    ensures HttpService.AuthTokenKey !in r.browser.local && HttpService.AuthTokenKey !in r.browser.session
    ensures RefreshTokenKey !in r.browser.local && RefreshTokenKey !in r.browser.session
    ensures r.redirect == LoginPath
    ensures r.browser.local == RemoveTokens(LogoutCall(b, apiSucceeded).local)
    ensures r.browser.session == RemoveTokens(LogoutCall(b, apiSucceeded).session)
    ensures r.browser.hasWindow == b.hasWindow
  {
    var b' := LogoutCall(b, apiSucceeded);
    LogoutResult(
      AuthSlice.Reduce(auth, AuthSlice.Logout),
      b'.(local := RemoveTokens(b'.local), session := RemoveTokens(b'.session)),
      LoginPath)
  }

  /** The outcome of logout does not depend on whether the API call threw,
      and afterwards the guard sends the user to the login page. */
  lemma LogoutIgnoresApiOutcome(auth: AuthSlice.AuthState, b: HttpService.Browser)
    ensures Logout(auth, b, true) == Logout(auth, b, false)
    ensures GuardRedirects(Logout(auth, b, true).auth, Logout(auth, b, true).browser)
  {
    AuthSlice.LogoutResets(auth);
    var c := HttpService.ClearAuthToken(b);
    assert RemoveTokens(c.local) == RemoveTokens(b.local);
    assert RemoveTokens(c.session) == RemoveTokens(b.session);
  }

  /** `handleUploadSuccess`: one more refresh of the list. */
  function UploadSucceeded(d: Dash): (r: Dash)
    ensures r.refreshCounter == d.refreshCounter + 1
    ensures r == d.(refreshCounter := r.refreshCounter)
  {
    d.(refreshCounter := d.refreshCounter + 1)
  }

  /** The status prop the page hands the drawer. */
  function DrawerStatus(d: Dash): (status: string)
    ensures d.file.Some? ==> status == Completed
    ensures d.file.None? ==> status == ""
  {
    if d.file.Some? then Completed else ""
  }

  function DataProp(d: Dash): Option<Json> {
    if d.data.Some? then Some(JStr(d.data.value)) else None
  }

  function DrawerProps(d: Dash): Drawer.Props {
    Drawer.Props(d.isOpen, d.file, d.kind, DataProp(d), DrawerStatus(d), d.audioUrl)
  }

  /** The page's drawer never offers the start button: with a file it is told
      the job is completed, and without one it renders nothing. */
  lemma NoStartButtonOnDashboard(d: Dash)
    ensures d.file.None? ==> Drawer.Render(DrawerProps(d)).None?
    ensures d.file.Some? ==>
      && Drawer.Render(DrawerProps(d)).Some?
      && !Drawer.Render(DrawerProps(d)).value.startButton
      && Drawer.Render(DrawerProps(d)).value.statusLabel == Completed
  {
  }
}

=== FILE: decimal.dfy ===
/** Decimal digit strings for naturals, as `Number.prototype.toString()`
    writes them, and the parser that reads them back. */
module Decimal {

  predicate IsDigit(c: char) {
    '0' <= c <= '9'
  }

  predicate AllDigits(s: string) {
    forall i :: 0 <= i < |s| ==> IsDigit(s[i])
  }

  function DigitChar(d: nat): (c: char)
    requires d < 10
    ensures IsDigit(c)
  {
    (d + '0' as int) as char
  }

  function DigitValue(c: char): (d: nat)
    requires IsDigit(c)
    ensures d < 10
  {
    (c as int) - ('0' as int)
  }

  /** `n.toString()`: shortest decimal form, no leading zeros. */
  function ToDecimal(n: nat): (s: string)
    ensures |s| >= 1 && AllDigits(s)
    ensures |s| == 1 <==> n < 10
    ensures s[0] == '0' ==> n == 0
    decreases n
  {
    if n < 10 then [DigitChar(n)] else ToDecimal(n / 10) + [DigitChar(n % 10)]
  }

  /** The value a digit string denotes. */
  function FromDecimal(s: string): nat
    requires AllDigits(s)
    decreases |s|
  {
    if |s| == 0 then 0 else FromDecimal(s[..|s| - 1]) * 10 + DigitValue(s[|s| - 1])
  }

  /** Reading back what `ToDecimal` writes gives the number again. */
  lemma {:induction false} DecimalRoundTrip(n: nat)
    ensures FromDecimal(ToDecimal(n)) == n
    decreases n
  {
    var s := ToDecimal(n);
    if n >= 10 {
      DecimalRoundTrip(n / 10);
      assert s[..|s| - 1] == ToDecimal(n / 10);
      assert DigitValue(DigitChar(n % 10)) == n % 10;
    } else {
      assert s[..0] == [];
    }
  }

  /** `n.toString().padStart(2, "0")`. */
  function PadTwo(n: nat): (s: string)
    requires n < 100
    ensures |s| == 2 && AllDigits(s)
  {
    if n < 10 then ['0', DigitChar(n)] else ToDecimal(n)
  }

  /** Reading back a padded pair gives the number again. */
  lemma PadTwoRoundTrip(n: nat)
    requires n < 100
    ensures FromDecimal(PadTwo(n)) == n
  {
    if n < 10 {
      var s := PadTwo(n);
      assert s[..1] == ['0'];
      assert ['0'][..0] == [];
    } else {
      DecimalRoundTrip(n);
    }
  }
}

=== FILE: domain.dfy ===
/** Shapes shared by the components: the audio-file record, the two job
    kinds and the status vocabulary the backend and the views use. */
module Domain {
  import opened Js

  /** The two asynchronous jobs an audio file can have. */
  datatype Kind = Transcription | Summary

  /** An uploaded audio file as listed by the backend. */
  datatype AudioFile = AudioFile(
    id: string,
    name: string,
    size: nat,
    extension: string,
    durationSeconds: nat,
    uploadedAt: string)

  // Status strings. The backend may send any string, so statuses stay strings.
  const NotStarted := "not_started"
  const Loading := "loading"
  const Pending := "pending"
  const Processing := "processing"
  const Completed := "completed"
  const Failed := "failed"

  /** A call whose body is inspected: the wrapper's `success` flag and
      `data`, or a thrown error. */
  datatype Reply = Resolved(success: bool, data: Json) | Threw

  /** `response.success && response.data`. */
  predicate Usable(r: Reply) {
    r.Resolved? && r.success && Truthy(r.data)
  }

  /** The body of a status-endpoint reply: the job status and, once
      completed, the transcript or summary text. */
  datatype StatusBody = StatusBody(status: string, result: Option<string>)

  /** A status-endpoint call: it resolved (with the wrapper's `success` flag and
      a body that may be missing) or it threw. */
  datatype StatusReply = StatusResolved(success: bool, body: Option<StatusBody>) | StatusThrew

  /** `response.success && response.data`: the reply carries a status. */
  predicate Reports(r: StatusReply) {
    r.StatusResolved? && r.success && r.body.Some?
  }

  /** A job-creation call whose body is not inspected: its `success` flag,
      or the message of what it threw. */
  datatype CreateReply = Created(success: bool) | CreateThrew(message: Option<string>)

  /** A status for which the pollers schedule another poll. */
  predicate KeepsPolling(status: string) {
    status == Processing || status == Pending
  }
}

=== FILE: drawer.dfy ===
/** The result drawer as a pure function of its props: which texts, status
    label and colour, start button and content branch it shows. */
module Drawer {
  import opened Js
  import opened Domain

  datatype Props = Props(
    isOpen: bool,
    audioFile: Option<AudioFile>,
    kind: Kind,
    data: Option<Json>,
    status: string,
    audioUrl: Option<Json>)

  /** The texts that depend on the job kind alone. */
  datatype Texts = Texts(title: string, actionButton: string, emptyMessage: string)

  function TextsFor(kind: Kind): (t: Texts)
    ensures kind == Transcription ==> t.title == "Transcription"
    ensures kind == Summary ==> t.title == "Summary"
  {
    if kind == Transcription then
      Texts("Transcription", "Start Transcription", "No transcription available for this audio file.")
    else
      Texts("Summary", "Start Summary", "No summary available for this audio file.")
  }

  /** The two kinds never share a title, button text or empty message. */
  lemma TextsDistinguishKinds()
    ensures TextsFor(Transcription).title != TextsFor(Summary).title
    ensures TextsFor(Transcription).actionButton != TextsFor(Summary).actionButton
    ensures TextsFor(Transcription).emptyMessage != TextsFor(Summary).emptyMessage
  {
  }

  /** Which of the four result panels is shown. */
  datatype Content =
    | ShowsData(payload: Json)
    | ShowsProcessing(message: string)
    | ShowsFailed(message: string)
    | ShowsEmpty(message: string)

  function ContentFor(kind: Kind, data: Option<Json>, status: string): (c: Content)
    ensures c.ShowsData? <==> TruthyJson(data)
    ensures c.ShowsData? ==> c.payload == data.value
    ensures c.ShowsProcessing? <==> !TruthyJson(data) && status == Processing
    ensures c.ShowsFailed? <==> !TruthyJson(data) && status == Failed
    ensures c.ShowsEmpty? ==> c.message == TextsFor(kind).emptyMessage
  {
    if TruthyJson(data) then ShowsData(data.value)
    else if status == Processing then
      ShowsProcessing("Processing " + (if kind == Transcription then "transcription" else "summary")
        + "... This may take a few minutes.")
    else if status == Failed then
      ShowsFailed((if kind == Transcription then "Transcription" else "Summary") + " failed. Please try again.")
    else ShowsEmpty(TextsFor(kind).emptyMessage)
  }

  /** The start button's visibility rule. */
  function ShowsStartButton(data: Option<Json>, status: string): (shown: bool)
    ensures TruthyJson(data) ==> !shown
    ensures shown ==> StatusColour(status) == Red || StatusColour(status) == Gray
    ensures !TruthyJson(data) && (status == Failed || status == NotStarted || status == "") ==> shown
  {
    !TruthyJson(data) && status != Processing && status != Completed
  }

  /** `status || "Not started"`. */
  function StatusLabel(status: string): (r: string)
    ensures r == "Not started" <==> status == "" || status == "Not started"
    ensures status != "" ==> r == status
    ensures r != ""
  {
    if TruthyStr(status) then status else "Not started"
  }

  datatype Colour = Blue | Green | Red | Gray

  function StatusColour(status: string): (c: Colour)
    ensures c == Blue <==> status == Processing
    ensures c == Green <==> status == Completed
    ensures c == Red <==> status == Failed
  {
    if status == Processing then Blue
    else if status == Completed then Green
    else if status == Failed then Red
    else Gray
  }

  /** Whether the keydown listener calls `onClose`: only for Escape, and only
      while the drawer is open. */
  function OnKeyDown(key: string, isOpen: bool): (closes: bool)
    ensures closes ==> isOpen
    ensures closes <==> key == "Escape" && isOpen
  {
    key == "Escape" && isOpen
  }

  datatype View = View(
    texts: Texts,
    fileName: string,
    statusLabel: string,
    statusColour: Colour,
    startButton: bool,
    content: Content,
    playsAudio: bool)

  /** The rendered drawer; `None` is the null render for a missing file. */
  function Render(p: Props): (v: Option<View>)
    ensures v.None? <==> p.audioFile.None?
    ensures v.Some? ==> v.value.texts == TextsFor(p.kind)
    ensures v.Some? ==> v.value.startButton == ShowsStartButton(p.data, p.status)
    ensures v.Some? ==> v.value.content == ContentFor(p.kind, p.data, p.status)
    ensures v.Some? ==> v.value.statusLabel == StatusLabel(p.status)
    ensures v.Some? ==> v.value.statusColour == StatusColour(p.status)
  {
    match p.audioFile
    case None => None
    case Some(f) =>
      Some(View(TextsFor(p.kind), f.name, StatusLabel(p.status), StatusColour(p.status),
                ShowsStartButton(p.data, p.status), ContentFor(p.kind, p.data, p.status),
                TruthyJson(p.audioUrl)))
  }

  /** Data wins over every status, and the start button is offered only next
      to the failed or empty panel, never beside data, a running job or a
      completed one. */
  lemma ContentPriority(kind: Kind, data: Option<Json>, status: string)
    ensures TruthyJson(data) ==> ContentFor(kind, data, status) == ShowsData(data.value) && !ShowsStartButton(data, status)
    ensures ShowsStartButton(data, status) ==>
      ContentFor(kind, data, status).ShowsFailed? || ContentFor(kind, data, status).ShowsEmpty?
    ensures ShowsStartButton(data, status) <==>
      (ContentFor(kind, data, status).ShowsFailed? || ContentFor(kind, data, status).ShowsEmpty?) && status != Completed
  {
  }

  /** The title, button text and empty message depend on the kind alone. */
  lemma TextsDependOnKindOnly(p: Props, q: Props)
    requires p.audioFile.Some? && q.audioFile.Some? && p.kind == q.kind
    ensures Render(p).value.texts == Render(q).value.texts
  {
  }
}

=== FILE: drawer_manager.dfy ===
/** The job status tracker behind a result drawer. It probes for an existing
    transcription or summary when the drawer opens, starts a job on request
    and polls until the job leaves processing/pending. Backend calls are
    replies passed in; "schedule the next poll" is a boolean result. */
module DrawerManager {
  import opened Js
  import opened Domain
  import Drawer

  /** The in-band value the transcription endpoint returns for "no transcription". */
  const Sentinel := "Transcription not found"

  /** The drawer's local state. `loading` is true while the open-time probe runs. */
  datatype Tracker = Tracker(data: Option<Json>, audioUrl: Option<Json>, status: string, loading: bool)

  /** A tracker step and whether it schedules another poll. */
  datatype Step = Step(next: Tracker, schedulePoll: bool)

  /** The tracker a freshly mounted drawer starts with. */
  function Initial(): (r: Tracker)
    ensures r.data.None? && r.audioUrl.None? && r.status == NotStarted && !r.loading
    ensures Displayed(r) == NotStarted
  {
    Tracker(None, None, NotStarted, false)
  }

  /** What the drawer shows as the status. */
  function Displayed(s: Tracker): (r: string)
    ensures s.loading ==> r == Loading
    ensures !s.loading ==> r == s.status
  {
    if s.loading then Loading else s.status
  }

  // ----- Probing for an existing result -----

  /** The object a transcription reply keeps its fields in: the nested `data`
      object when there is a `data` key, else the body itself. */
  function TranscriptHolder(body: Json): Json {
    if HasKey(body, "data") then body.fields["data"] else body
  }

  /** The `text` found by the transcription probe, or `None` when the reply
      is unusable, the sentinel, not an object, or has no `text` where it
      is looked for. */
  function TranscriptText(r: Reply): (t: Option<Json>)
    ensures t.Some? ==> Usable(r) && r.data.JObj?
    ensures t.Some? ==> HasKey(TranscriptHolder(r.data), "text") && t.value == TranscriptHolder(r.data).fields["text"]
    ensures Usable(r) && HasKey(TranscriptHolder(r.data), "text") ==> t.Some?
    ensures r.Threw? || r.data == JStr(Sentinel) ==> t.None?
  {
    if !Usable(r) then None
    else if r.data == JStr(Sentinel) then None
    else if r.data.JObj? || r.data.JArr? then
      // a truthy value of type "object"
      var holder := TranscriptHolder(r.data);
      if Truthy(holder) && HasKey(holder, "text") then Some(holder.fields["text"]) else None
    else None
  }

  /** The payload found by the summary probe: the whole body, unless the reply
      is unusable or carries an `error` key. `"error" in v` throws on a
      primitive; the throw is caught and also means "none". */
  function SummaryPayload(r: Reply): (p: Option<Json>)
    ensures p.Some? <==> Usable(r) && (r.data.JArr? || (r.data.JObj? && "error" !in r.data.fields))
    ensures p.Some? ==> p.value == r.data
  {
    if !Usable(r) then None
    else match r.data
      case JObj(fields) => if "error" in fields then None else Some(r.data)
      case JArr(_) => Some(r.data)
      case _ => None
  }

  /** The payload a probe finds for a job kind. */
  function Probe(kind: Kind, r: Reply): Option<Json> {
    if kind == Transcription then TranscriptText(r) else SummaryPayload(r)
  }

  /** `loadDrawerData` up to its first await: loading is on. */
  function BeginLoad(s: Tracker): (r: Tracker)
    ensures r.loading && Displayed(r) == Loading
    ensures r.data == s.data && r.status == s.status && r.audioUrl == s.audioUrl
  {
    s.(loading := true)
  }

  /** `loadDrawerData` once the URL call and the probe have settled. A thrown
      URL call skips the probe (the outer catch); an unusable URL reply keeps
      the previous URL. */
  function FinishLoad(s: Tracker, kind: Kind, url: Reply, probe: Reply): (r: Tracker)
    ensures !r.loading
    ensures r.status == NotStarted || r.status == Completed
    ensures r.status == NotStarted <==> r.data == None
    ensures r.status == Completed <==> url.Resolved? && Probe(kind, probe).Some?
    ensures r.status == Completed ==> r.data == Probe(kind, probe)
    ensures Usable(url) ==> r.audioUrl == Get(url.data, "audio_file_url")
    ensures !Usable(url) ==> r.audioUrl == s.audioUrl
  {
    if url.Threw? then s.(data := None, status := NotStarted, loading := false)
    else
      var audioUrl := if Usable(url) then Get(url.data, "audio_file_url") else s.audioUrl;
      match Probe(kind, probe)
      case Some(p) => Tracker(Some(p), audioUrl, Completed, false)
      case None => Tracker(None, audioUrl, NotStarted, false)
  }

  /** The effect on `[isOpen, audioFile, type]`: an open drawer with a file
      starts loading; otherwise the state is reset. */
  function OnPropsChange(s: Tracker, isOpen: bool, hasFile: bool): (r: Tracker)
    ensures isOpen && hasFile ==> r == BeginLoad(s)
    ensures !(isOpen && hasFile) ==> r.data == None && r.audioUrl == None && r.status == NotStarted
    ensures !(isOpen && hasFile) ==> r.loading == s.loading
  {
    if isOpen && hasFile then BeginLoad(s)
    else s.(data := None, audioUrl := None, status := NotStarted)
  }

  /** Closing the drawer and opening it again forgets what it held: the
      settled load depends only on the replies, and the URL is `None` unless
      the URL reply is usable. */
  lemma ReopenForgets(s: Tracker, t: Tracker, hadFile: bool, hadFile2: bool, kind: Kind, url: Reply, probe: Reply)
    ensures FinishLoad(OnPropsChange(OnPropsChange(s, false, hadFile), true, true), kind, url, probe)
      == FinishLoad(OnPropsChange(OnPropsChange(t, false, hadFile2), true, true), kind, url, probe)
    ensures !Usable(url) ==>
      FinishLoad(OnPropsChange(OnPropsChange(s, false, hadFile), true, true), kind, url, probe).audioUrl == None
  {
  }

  /** A drawer mounted closed, or without a file, stays in its initial state;
      mounted open with a file it goes straight to loading. */
  lemma MountedTracker(hasFile: bool)
    ensures OnPropsChange(Initial(), false, hasFile) == Initial()
    ensures OnPropsChange(Initial(), true, false) == Initial()
    ensures Displayed(OnPropsChange(Initial(), true, true)) == Loading
  {
  }

  /** An open probe never reports a job as failed or running. */
  lemma ProbeNeverFailsOrRuns(s: Tracker, kind: Kind, url: Reply, probe: Reply)
    ensures var r := FinishLoad(s, kind, url, probe);
      r.status != Failed && r.status != Processing && r.status != Pending && Displayed(r) == r.status
  {
  }

  /** The shapes that mean "nothing yet": the sentinel, an unsuccessful reply,
      a thrown probe, a summary with an `error` key. */
  lemma ProbeEmptyShapes(s: Tracker, fields: map<string, Json>, ok: bool, data: Json, url: Reply)
    requires url.Resolved?
    ensures FinishLoad(s, Transcription, url, Resolved(ok, JStr(Sentinel))).status == NotStarted
    ensures FinishLoad(s, Transcription, url, Resolved(false, data)).status == NotStarted
    ensures FinishLoad(s, Summary, url, Resolved(false, data)).status == NotStarted
    ensures FinishLoad(s, Transcription, url, Threw).status == NotStarted
    ensures FinishLoad(s, Summary, url, Threw).status == NotStarted
    ensures "error" in fields ==> FinishLoad(s, Summary, url, Resolved(ok, JObj(fields))).status == NotStarted
    ensures data.JStr? || data.JNum? || data.JBool? ==> FinishLoad(s, Summary, url, Resolved(ok, data)).status == NotStarted
  {
  }

  /** The transcription text is found both flat and nested under `data`. */
  lemma TranscriptShapes(s: Tracker, url: Reply, text: Json, inner: map<string, Json>, outer: map<string, Json>)
    requires url.Resolved?
    requires "text" in inner && inner["text"] == text
    ensures "data" !in inner ==>
      var r := FinishLoad(s, Transcription, url, Resolved(true, JObj(inner)));
      r.status == Completed && r.data == Some(text)
    ensures var r := FinishLoad(s, Transcription, url, Resolved(true, JObj(outer["data" := JObj(inner)])));
      r.status == Completed && r.data == Some(text)
  {
    var body := JObj(outer["data" := JObj(inner)]);
    assert TranscriptHolder(body) == JObj(inner);
  }

  /** A `data` key shadows a top-level `text`: the nested object is the only
      place looked at. */
  lemma NestedDataShadowsText(s: Tracker, url: Reply, text: Json, inner: map<string, Json>)
    requires url.Resolved? && "text" !in inner
    ensures var body := JObj(map["data" := JObj(inner), "text" := text]);
      FinishLoad(s, Transcription, url, Resolved(true, body)).status == NotStarted
  {
    var body := JObj(map["data" := JObj(inner), "text" := text]);
    assert TranscriptHolder(body) == JObj(inner);
  }

  /** A summary reply without an `error` key completes with the whole payload. */
  lemma SummaryCompletes(s: Tracker, url: Reply, fields: map<string, Json>)
    requires url.Resolved? && "error" !in fields
    ensures var r := FinishLoad(s, Summary, url, Resolved(true, JObj(fields)));
      r.status == Completed && r.data == Some(JObj(fields))
  {
  }

  // ----- Starting a job -----

  /** `handleStartAction` before its first await: the status reads processing
      and nothing else changes. */
  function BeginStart(s: Tracker): (r: Tracker)
    ensures r.status == Processing
    ensures r.data == s.data && r.audioUrl == s.audioUrl && r.loading == s.loading
  {
    s.(status := Processing)
  }

  /** Whether a transcription create reply carries the text inline:
      `response.data.data && response.data.data.text`. */
  predicate InlineText(body: Json) {
    TruthyJson(Get(body, "data")) && TruthyJson(Get(Get(body, "data").value, "text"))
  }

  /** `handleStartAction`. The status is processing first; the create reply
      then completes the job inline, hands over to polling, or fails it. */
  function Start(s: Tracker, kind: Kind, create: Reply): (r: Step)
    ensures r.next.loading == s.loading && r.next.audioUrl == s.audioUrl
    ensures r.schedulePoll ==> kind.Transcription? && r.next == BeginStart(s)
    ensures !Usable(create) ==> r == Step(s.(status := Failed), false)
    ensures Usable(create) ==> r.next.status != Failed
    ensures Usable(create) && kind.Summary? ==>
      r == Step(s.(data := Some(create.data), status := Completed), false)
    ensures Usable(create) && kind.Transcription? && InlineText(create.data) ==>
      r == Step(s.(data := Get(Get(create.data, "data").value, "text"), status := Completed), false)
    ensures Usable(create) && kind.Transcription? && !InlineText(create.data) ==>
      r == Step(BeginStart(s), true)
    ensures r.next.status == Completed ==> Usable(create) && !r.schedulePoll && TruthyJson(r.next.data)
    ensures r.next.status in {Processing, Completed, Failed}
  {
    var started := BeginStart(s);
    if !Usable(create) then Step(started.(status := Failed), false)
    else if kind.Summary? then Step(started.(data := Some(create.data), status := Completed), false)
    else if InlineText(create.data) then
      Step(started.(data := Get(Get(create.data, "data").value, "text"), status := Completed), false)
    else Step(started, true)
  }

  /** Once a start has begun, and outside the open-time probe, the drawer reads
      processing in blue, offers no start button and shows the running panel
      unless data is already there. */
  lemma StartShowsProcessing(s: Tracker, f: AudioFile, kind: Kind)
    requires !s.loading
    ensures Displayed(BeginStart(s)) == Processing
    ensures var v := Drawer.Render(DrawerProps(BeginStart(s), true, Some(f), kind)).value;
      v.statusLabel == Processing && v.statusColour == Drawer.Blue && !v.startButton
      && (v.content.ShowsProcessing? <==> !TruthyJson(s.data))
  {
  }

  /** An inline `data.text` in the create reply completes the transcription
      at once, with no poll. */
  lemma StartInlineText(s: Tracker, outer: map<string, Json>, inner: map<string, Json>, text: string)
    requires "text" in inner && inner["text"] == JStr(text) && text != ""
    ensures var r := Start(s, Transcription, Resolved(true, JObj(outer["data" := JObj(inner)])));
      r.next.status == Completed && r.next.data == Some(JStr(text)) && !r.schedulePoll
  {
  }

  /** A successful create without inline text leaves the job processing and
      polls: no `data` key, a null `data`, a `data` object without `text`, or
      an empty `text`. */
  lemma StartWithoutTextPolls(s: Tracker, fields: map<string, Json>, inner: map<string, Json>)
    ensures "data" !in fields ==>
      Start(s, Transcription, Resolved(true, JObj(fields))) == Step(BeginStart(s), true)
    ensures Start(s, Transcription, Resolved(true, JObj(fields["data" := JNull]))) == Step(BeginStart(s), true)
    ensures "text" !in inner ==>
      Start(s, Transcription, Resolved(true, JObj(fields["data" := JObj(inner)]))) == Step(BeginStart(s), true)
    ensures Start(s, Transcription, Resolved(true, JObj(fields["data" := JObj(inner["text" := JStr("")])])))
      == Step(BeginStart(s), true)
  {
  }

  /** A thrown or unsuccessful create fails the job for either kind. */
  lemma StartFailures(s: Tracker, kind: Kind, data: Json)
    ensures Start(s, kind, Threw) == Step(s.(status := Failed), false)
    ensures Start(s, kind, Resolved(false, data)) == Step(s.(status := Failed), false)
  {
  }

  // ----- Polling -----

  /** The catch branch of a poll. `captured` is the status value the poll's
      closure saw when it was created, not the current one. */
  function OnPollError(s: Tracker, captured: string): (r: Step)
    ensures r.schedulePoll <==> captured == Processing
    ensures r.schedulePoll ==> r.next == s
    ensures !r.schedulePoll ==> r.next == s.(status := Failed)
  {
    if captured == Processing then Step(s, true) else Step(s.(status := Failed), false)
  }

  /** One `pollTranscriptionStatus` run: the direct probe first, then the
      status endpoint only if the probe found no text. */
  function Poll(s: Tracker, captured: string, probe: Reply, status: StatusReply): (r: Step)
    ensures r.next.loading == s.loading && r.next.audioUrl == s.audioUrl
    ensures TranscriptText(probe).Some? ==>
      r == Step(s.(data := TranscriptText(probe), status := Completed), false)
    ensures probe.Threw? ==> r == OnPollError(s, captured)
    ensures probe.Resolved? && TranscriptText(probe).None? && status.StatusThrew? ==> r == OnPollError(s, captured)
    ensures TranscriptText(probe).None? && Reports(status)
      && !(status.body.value.status == Completed && TruthyOpt(status.body.value.result))
      ==> r.next.data == s.data
  {
    if probe.Threw? then OnPollError(s, captured)
    else match TranscriptText(probe)
      case Some(t) => Step(s.(data := Some(t), status := Completed), false)
      case None =>
        match status
        case StatusThrew => OnPollError(s, captured)
        case StatusResolved(success, body) =>
          if !(success && body.Some?) then Step(s, false)
          else
            var reported := body.value.status;
            var s' := s.(status := reported);
            if KeepsPolling(reported) then Step(s', true)
            else if reported == Completed && TruthyOpt(body.value.result) then
              Step(s'.(data := Some(JStr(body.value.result.value))), false)
            else Step(s', false)
  }

  /** A probe that finds text ends the poll without consulting the status
      endpoint: any status reply gives the same step. */
  lemma PollProbeShortCircuits(s: Tracker, captured: string, probe: Reply, a: StatusReply, b: StatusReply)
    requires TranscriptText(probe).Some?
    ensures Poll(s, captured, probe, a) == Poll(s, captured, probe, b)
    ensures Poll(s, captured, probe, a).next.status == Completed && !Poll(s, captured, probe, a).schedulePoll
  {
  }

  /** When the probe answers without text, the next poll is scheduled exactly
      when the status endpoint reports processing or pending, and the tracked
      status becomes the reported one. */
  lemma PollContinuation(s: Tracker, captured: string, probe: Reply, status: StatusReply)
    requires probe.Resolved? && TranscriptText(probe).None? && Reports(status)
    ensures Poll(s, captured, probe, status).schedulePoll <==> KeepsPolling(status.body.value.status)
    ensures Poll(s, captured, probe, status).next.status == status.body.value.status
  {
  }

  /** A report of `failed` is terminal, and `completed` with a result stores it. */
  lemma PollTerminal(s: Tracker, captured: string, probe: Reply, result: Option<string>)
    requires probe.Resolved? && TranscriptText(probe).None?
    ensures var r := Poll(s, captured, probe, StatusResolved(true, Some(StatusBody(Failed, result))));
      r.next.status == Failed && !r.schedulePoll && r.next.data == s.data
    ensures TruthyOpt(result) ==>
      var r := Poll(s, captured, probe, StatusResolved(true, Some(StatusBody(Completed, result))));
      r.next.status == Completed && r.next.data == Some(JStr(result.value)) && !r.schedulePoll
  {
  }

  /** An unusable status reply changes nothing and stops polling. */
  lemma PollSilentStop(s: Tracker, captured: string, probe: Reply, status: StatusReply)
    requires probe.Resolved? && TranscriptText(probe).None? && status.StatusResolved? && !Reports(status)
    ensures Poll(s, captured, probe, status) == Step(s, false)
  {
  }

  /** What one timer firing sees: the probe reply and the status reply. */
  datatype PollReplies = PollReplies(probe: Reply, status: StatusReply)

  /** The chain of polls a start hands over to: each poll runs only if the one
      before scheduled it. Returns the final step and how many polls ran. */
  function RunPolls(s: Tracker, captured: string, replies: seq<PollReplies>): (r: (Step, nat))
    ensures r.1 <= |replies|
    ensures |replies| > 0 ==> r.1 >= 1
    decreases |replies|
  {
    if |replies| == 0 then (Step(s, true), 0)
    else
      var step := Poll(s, captured, replies[0].probe, replies[0].status);
      if !step.schedulePoll then (step, 1)
      else
        var rest := RunPolls(step.next, captured, replies[1..]);
        (rest.0, rest.1 + 1)
  }

  /** Replies that keep a job waiting: no text yet, and a processing or
      pending report. */
  predicate Waiting(p: PollReplies) {
    p.probe.Resolved? && TranscriptText(p.probe).None? && Reports(p.status) && KeepsPolling(p.status.body.value.status)
  }

  /** A job that is reported waiting some number of times and then reported
      completed with a result converges to completed with that result, after
      exactly that many polls plus one, and stops polling. */
  lemma {:induction false} RunPollsConverges(s: Tracker, captured: string, replies: seq<PollReplies>, result: string)
    requires |replies| > 0 && result != ""
    requires forall i :: 0 <= i < |replies| - 1 ==> Waiting(replies[i])
    requires var last := replies[|replies| - 1];
      last.probe.Resolved? && TranscriptText(last.probe).None?
      && last.status == StatusResolved(true, Some(StatusBody(Completed, Some(result))))
    ensures var r := RunPolls(s, captured, replies);
      r.0.next.status == Completed && r.0.next.data == Some(JStr(result)) && !r.0.schedulePoll
      && r.1 == |replies|
    decreases |replies|
  {
    var step := Poll(s, captured, replies[0].probe, replies[0].status);
    if |replies| > 1 {
      assert Waiting(replies[0]);
      assert step.schedulePoll;
      RunPollsConverges(step.next, captured, replies[1..], result);
    }
  }

  /** Once a poll reports `failed`, no later reply is consulted. */
  lemma {:induction false} RunPollsStopsAtFailure(s: Tracker, captured: string, replies: seq<PollReplies>, k: nat)
    requires k < |replies|
    requires forall i :: 0 <= i < k ==> Waiting(replies[i])
    requires replies[k].probe.Resolved? && TranscriptText(replies[k].probe).None?
    requires Reports(replies[k].status) && replies[k].status.body.value.status == Failed
    ensures var r := RunPolls(s, captured, replies);
      r.1 == k + 1 && r.0.next.status == Failed && !r.0.schedulePoll
      && r == RunPolls(s, captured, replies[..k + 1])
    decreases k
  {
    var step := Poll(s, captured, replies[0].probe, replies[0].status);
    if k > 0 {
      assert Waiting(replies[0]);
      assert replies[..k + 1][1..] == replies[1..][..k];
      RunPollsStopsAtFailure(step.next, captured, replies[1..], k - 1);
    }
  }

  /** The resource client has no `getTranscription`, `getSummary` or
      `createSummary`, so those calls throw and are caught. With such replies
      the open-time load always ends not_started, a summary start always
      fails, and a poll goes to its catch branch whatever the status endpoint
      says. */
  lemma MissingClientMethods(s: Tracker, kind: Kind, url: Reply, captured: string, status: StatusReply)
    requires url.Resolved?
    ensures FinishLoad(s, kind, url, Threw).status == NotStarted
    ensures FinishLoad(s, kind, url, Threw).data == None
    ensures Start(s, Summary, Threw) == Step(s.(status := Failed), false)
    ensures Poll(s, captured, Threw, status) == OnPollError(s, captured)
  {
  }

  /** The props the tracker renders the drawer with. */
  function DrawerProps(s: Tracker, isOpen: bool, file: Option<AudioFile>, kind: Kind): Drawer.Props {
    Drawer.Props(isOpen, file, kind, s.data, Displayed(s), s.audioUrl)
  }

  /** While the open-time probe runs the drawer reads "loading" in gray; once
      a start hands over to polling it shows the running panel and no start
      button, unless data is already there. */
  lemma TrackerViews(s: Tracker, f: AudioFile, kind: Kind, create: Reply)
    ensures var v := Drawer.Render(DrawerProps(BeginLoad(s), true, Some(f), kind)).value;
      v.statusLabel == Loading && v.statusColour == Drawer.Gray
    ensures var r := Start(s, kind, create);
      r.schedulePoll && !r.next.loading ==>
        var v := Drawer.Render(DrawerProps(r.next, true, Some(f), kind)).value;
        !v.startButton && (v.content.ShowsProcessing? <==> !TruthyJson(s.data))
  {
  }
}

=== FILE: http_service.dfy ===
/** The transport wrapper: where the bearer token is kept and looked up,
    what a 401 does to it, how thrown errors are normalised and how a
    successful call is wrapped. Browser storage is two abstract string maps. */
module HttpService {
  import opened Js

  /** Key under which both stores keep the access token. */
  const AuthTokenKey := "authToken"
  const DefaultErrorMessage := "An error occurred"

  type Store = map<string, string>

  /** The browser's two key-value stores; `hasWindow` is false during
      server-side rendering, where neither store is reachable. */
  datatype Browser = Browser(hasWindow: bool, local: Store, session: Store)

  /** `storage.getItem(key)`. */
  function GetItem(m: Store, key: string): (r: Option<string>)
    ensures r.Some? <==> key in m
    ensures r.Some? ==> r.value == m[key]
  {
    if key in m then Some(m[key]) else None
  }

  /** `localStorage.getItem("authToken") || sessionStorage.getItem("authToken")`. */
  function StoredToken(b: Browser): Option<string> {
    Or(GetItem(b.local, AuthTokenKey), GetItem(b.session, AuthTokenKey))
  }

  /** The token the request interceptor attaches. */
  function GetAuthToken(b: Browser): (r: Option<string>)
    ensures !b.hasWindow ==> r == None
    ensures b.hasWindow && TruthyOpt(GetItem(b.local, AuthTokenKey)) ==> r == GetItem(b.local, AuthTokenKey)
    ensures b.hasWindow && !TruthyOpt(GetItem(b.local, AuthTokenKey)) ==> r == GetItem(b.session, AuthTokenKey)
  {
    if b.hasWindow then StoredToken(b) else None
  }

  /** Stores the token in the local store only. */
  function SetAuthToken(b: Browser, token: string): (r: Browser)
    ensures b.hasWindow ==> r.local == b.local[AuthTokenKey := token]
    ensures r.session == b.session
    ensures !b.hasWindow ==> r == b
  {
    if b.hasWindow then b.(local := b.local[AuthTokenKey := token]) else b
  }

  /** Removes the token from both stores. */
  function ClearAuthToken(b: Browser): (r: Browser)
    ensures b.hasWindow ==> AuthTokenKey !in r.local && AuthTokenKey !in r.session
    ensures forall k :: k in b.local && k != AuthTokenKey ==> k in r.local && r.local[k] == b.local[k]
    ensures forall k :: k in b.session && k != AuthTokenKey ==> k in r.session && r.session[k] == b.session[k]
    ensures forall k :: k in r.local ==> k in b.local
    ensures forall k :: k in r.session ==> k in b.session
    ensures r.hasWindow == b.hasWindow
  {
    if b.hasWindow then b.(local := b.local - {AuthTokenKey}, session := b.session - {AuthTokenKey}) else b
  }

  /** What the interceptor does on a 401: the same clearing as `ClearAuthToken`. */
  function HandleUnauthorized(b: Browser): Browser {
    ClearAuthToken(b)
  }

  /** After clearing, no token is found any more. */
  lemma ClearThenGetIsNone(b: Browser)
    ensures GetAuthToken(ClearAuthToken(b)) == None
  {
  }

  /** A token just set is the one found, unless the window is missing. */
  lemma SetThenGet(b: Browser, token: string)
    requires b.hasWindow && TruthyStr(token)
    ensures GetAuthToken(SetAuthToken(b, token)) == Some(token)
  {
  }

  type Headers = map<string, string>

  /** The request interceptor's header rule: a bearer header is added only for a
      non-empty token, and every other header passes through. */
  function WithAuthHeader(h: Headers, b: Browser): (r: Headers)
    ensures TruthyOpt(GetAuthToken(b)) ==> "Authorization" in r && r["Authorization"] == "Bearer " + GetAuthToken(b).value
    ensures !TruthyOpt(GetAuthToken(b)) ==> r == h
    ensures forall k :: k in h && k != "Authorization" ==> k in r && r[k] == h[k]
    ensures r.Keys <= h.Keys + {"Authorization"}
  {
    var token := GetAuthToken(b);
    if TruthyOpt(token) then h["Authorization" := "Bearer " + token.value] else h
  }

  /** The body of an error response, as far as the normaliser reads it. */
  datatype ErrorBody = ErrorBody(message: Option<string>, raw: Json)

  datatype ErrorResponse = ErrorResponse(status: int, data: Option<ErrorBody>)

  /** A rejected request: the error's own message and, when the server
      answered, its response. */
  datatype HttpError = HttpError(message: Option<string>, response: Option<ErrorResponse>)

  /** The normalised error every failed call rejects with. */
  datatype ApiError = ApiError(message: string, status: Option<int>, data: Option<ErrorBody>)

  function ResponseMessage(e: HttpError): Option<string> {
    if e.response.Some? && e.response.value.data.Some? then e.response.value.data.value.message else None
  }

  /** `formatError`: the server's message, else the error's, else the default. */
  function FormatError(e: HttpError): (r: ApiError)
    ensures TruthyOpt(ResponseMessage(e)) ==> r.message == ResponseMessage(e).value
    ensures !TruthyOpt(ResponseMessage(e)) && TruthyOpt(e.message) ==> r.message == e.message.value
    ensures !TruthyOpt(ResponseMessage(e)) && !TruthyOpt(e.message) ==> r.message == DefaultErrorMessage
    ensures r.message != ""
    ensures e.response.None? ==> r.status == None && r.data == None
    ensures e.response.Some? ==> r.status == Some(e.response.value.status) && r.data == e.response.value.data
  {
    var chosen := Or(ResponseMessage(e), e.message);
    ApiError(
      if TruthyOpt(chosen) then chosen.value else DefaultErrorMessage,
      if e.response.Some? then Some(e.response.value.status) else None,
      if e.response.Some? then e.response.value.data else None)
  }

  /** The response interceptor's effect on storage: only a 401 touches it. */
  function OnResponseError(b: Browser, e: HttpError): Browser {
    if e.response.Some? && e.response.value.status == 401 then HandleUnauthorized(b) else b
  }

  /** What the transport delivers for one call. */
  datatype Transport<T> = Delivered(status: int, body: T) | Rejected(error: HttpError)

  /** The shape every successful call resolves to. */
  datatype ApiResponse<T> = ApiResponse(data: T, status: Option<int>, success: Option<bool>, message: Option<string>)

  datatype Outcome<T> = Resolved(response: ApiResponse<T>) | Rejects(error: ApiError)

  /** One `get`/`post`/`put`/`patch`/`delete`/`uploadFile` call after the
      request interceptor has attached the header: the outcome and the
      storage left behind. */
  function Call<T>(b: Browser, t: Transport<T>): (Browser, Outcome<T>) {
    match t
    case Delivered(status, body) =>
      (b, Resolved(ApiResponse(body, Some(status), Some(true), None)))
    case Rejected(e) =>
      (OnResponseError(b, e), Rejects(FormatError(e)))
  }

  /** A call resolves exactly when the transport delivered; a resolved call is
      flagged successful and carries the body and status unchanged. */
  lemma CallWrapsSuccess<T>(b: Browser, t: Transport<T>)
    ensures Call(b, t).1.Resolved? <==> t.Delivered?
    ensures t.Delivered? ==>
      var r := Call(b, t).1.response;
      r.success == Some(true) && r.data == t.body && r.status == Some(t.status) && r.message == None
    ensures t.Rejected? ==> Call(b, t).1.error == FormatError(t.error)
  {
  }

  /** Storage changes only on a 401, which empties both token slots; 403, 5xx
      and every other failure or success leave it as it was. */
  lemma CallStorageEffect<T>(b: Browser, t: Transport<T>)
    ensures var b' := Call(b, t).0;
      && (t.Rejected? && t.error.response.Some? && t.error.response.value.status == 401 ==>
            b' == ClearAuthToken(b) && GetAuthToken(b') == None)
      && (!(t.Rejected? && t.error.response.Some? && t.error.response.value.status == 401) ==> b' == b)
  {
  }
}

=== FILE: js.dfy ===
/** JavaScript values as the components see them, and the truthiness rules
    their branches depend on. For a typed nullable value (`string | null`,
    an optional prop) `None` stands for both `null` and `undefined`. Inside a
    JSON payload a field that is present and holds `null` is `Some(JNull)`;
    only a missing field reads as `None`. Both are falsy. */
module Js {

  datatype Option<+T> = None | Some(value: T)

  /** A decoded backend payload. Numbers are integers in this model. */
  datatype Json =
    | JNull
    | JBool(b: bool)
    | JNum(n: int)
    | JStr(s: string)
    | JArr(items: seq<Json>)
    | JObj(fields: map<string, Json>)

  /** `if (s)` on a string. */
  predicate TruthyStr(s: string) {
    s != ""
  }

  /** `if (s)` on a `string | null`. */
  predicate TruthyOpt(o: Option<string>) {
    o.Some? && TruthyStr(o.value)
  }

  /** `if (v)` on a JSON value (objects and arrays are always truthy). */
  predicate Truthy(j: Json) {
    match j
    case JNull => false
    case JBool(b) => b
    case JNum(n) => n != 0
    case JStr(s) => TruthyStr(s)
    case JArr(_) => true
    case JObj(_) => true
  }

  /** `if (v)` on a value that may be `undefined`. */
  predicate TruthyJson(o: Option<Json>) {
    o.Some? && Truthy(o.value)
  }

  /** `a || b` on two `string | null` values. */
  function Or(a: Option<string>, b: Option<string>): (r: Option<string>)
    ensures TruthyOpt(a) ==> r == a
    ensures !TruthyOpt(a) ==> r == b
  {
    if TruthyOpt(a) then a else b
  }

  /** `key in v` for a value already known to be an object or array; the
      named keys used by the components are never array keys. */
  predicate HasKey(j: Json, key: string) {
    j.JObj? && key in j.fields
  }

  /** `Math.min`. */
  function Min(a: int, b: int): (r: int)
    ensures r <= a && r <= b && (r == a || r == b)
  {
    if a <= b then a else b
  }

  /** `Math.max`. */
  function Max(a: int, b: int): (r: int)
    ensures r >= a && r >= b && (r == a || r == b)
  {
    if a >= b then a else b
  }

  /** `v.key`; `None` stands for `undefined`. Reading a property of a
      primitive gives `undefined` too. */
  function Get(j: Json, key: string): (r: Option<Json>)
    ensures r.Some? <==> HasKey(j, key)
  {
    if HasKey(j, key) then Some(j.fields[key]) else None
  }
}
